=== FILE: README.md ===
# Flight-data API and registration form: request validators in Dafny

The repository holds two small applications. The first is a Flask API over three tables:
airlines, airports and flights. Each route takes a JSON body on POST, checks that the
required keys are present, builds an ORM record and commits it. On GET it lists the table
with a fixed set of keys. The module `app.py` also checks the environment at start-up and
builds the database connection URI. The second application is a React registration form.
It validates an e-mail address, an age and, for employee addresses, an employee code. It
logs the user in only when all three are accepted.

This project models exactly these decisions. Every handler and validator is a pure
function over immutable data:

- A request body is a decoded JSON value. `Null` is the JSON body `null`, which
  `get_json()` returns as `None`.
- The database table is a sequence of rows.
- The outcome of `db.session.commit()` is a parameter, and so is the id the database
  assigns to a new flight.
- `datetime.fromisoformat` is a parameter: an abstract partial parser.

Modules, one per source file or shared concern:

| module | file | models |
|---|---|---|
| `Wrappers` | wrappers.dfy | `Option` and `Result` (usable with `:-`) |
| `Text` | text.dfy | `join`, `endsWith`, substring, ASCII lowering, JavaScript's UTF-16 `length` |
| `Numerals` | numerals.dfy | digit strings, their values, decimal numerals |
| `JsParseInt` | js_parse_int.dfy | JavaScript `parseInt` with no radix |
| `PyInt` | py_int.dfy | Python `int()` on a string |
| `PyJson` | py_json.dfy | JSON values as Python objects: truthiness, `in`, `data[k]`, `data.get` |
| `Http` | http.dfy | responses, commit outcome, the shared POST flow |
| `Airlines`, `Airports`, `Flights` | airlines.dfy, airports.dfy, flights.dfy | the three blueprint routes |
| `App` | app.dfy | start-up checks, URI, `PORT`/`DEBUG`, the monolith's own two routes |
| `RegistrationForm` | registration_form.dfy | the form's validators and its two handlers |

## Model

| member | source | states |
|---|---|---|
| Text.Utf16LengthBounds | tarea_6_2/src/components/InputForm.tsx:44 | `code.length` counts UTF-16 units: between the character count and twice it, and equal to the character count exactly when no character lies outside the Basic Multilingual Plane |
| JsParseInt.ParseInt | tarea_6_2/src/components/InputForm.tsx:32 | `parseInt(age)` is a number exactly when, after leading white space and one optional sign, the text starts with a decimal digit and is not a `0x` prefix with no hex digit after it; it is negative only after a `-` |
| JsParseInt.ParseIntReadsNumeral | tarea_6_2/src/components/InputForm.tsx:32 | `parseInt` reads the signed numeral of any integer and ignores text after it that does not continue the digits ("18.9" gives 18, "1e3" gives 1); the one exception is a lone `0` followed by `x`, which is a hex prefix |
| JsParseInt.ParseIntRoundTrip | tarea_6_2/src/components/InputForm.tsx:32 | `parseInt` of the decimal numeral of n is n, for every integer n |
| JsParseInt.LeadingSpaceIgnored | tarea_6_2/src/components/InputForm.tsx:32 | leading white space does not change what `parseInt` returns |
| RegistrationForm.EmailShapeIffPattern | tarea_6_2/src/components/InputForm.tsx:24 | the regular expression matches exactly the strings with no white space, one `@` that is not first, and a `.` after it that is neither right after the `@` nor last |
| RegistrationForm.ValidateEmail | tarea_6_2/src/components/InputForm.tsx:23-29 | returns `''` exactly when the whole address matches run `@` run `.` run, each run free of white space and `@`; otherwise returns the format error |
| RegistrationForm.ValidateAge | tarea_6_2/src/components/InputForm.tsx:31-40 | range error exactly when parsing fails or the value is outside 1..120; under-age error exactly for 1..17; `''` exactly for 18..120 |
| RegistrationForm.AgeOfNumeral | tarea_6_2/src/components/InputForm.tsx:31-39 | for a typed whole number n, with or without a fraction or exponent after it: accepted iff 18 ≤ n ≤ 120, under-age iff 1 ≤ n ≤ 17, range error otherwise |
| RegistrationForm.ExponentNumeralReadAsLeadingDigits | tarea_6_2/src/components/InputForm.tsx:32-37 | "1e3" gets the under-age error, because `parseInt` stops at the `e` |
| RegistrationForm.ValidateEmployeeCode | tarea_6_2/src/components/InputForm.tsx:42-48 | error exactly when the address is an employee's and the code's length is not 6 (the empty code included); always `''` for other addresses |
| RegistrationForm.EmployeeCodeCountsCharacters | tarea_6_2/src/components/InputForm.tsx:44 | for a code with only Basic Multilingual Plane characters, accepted iff it has exactly 6 characters |
| RegistrationForm.AstralCodeAccepted | tarea_6_2/src/components/InputForm.tsx:44 | a code of three emoji (six UTF-16 units) is accepted |
| RegistrationForm.IsEmployeeDomain | tarea_6_2/src/components/InputForm.tsx:62 | an address is an employee's exactly when it is some string followed by `umg.com` |
| RegistrationForm.SuffixIsNotDomainCheck | tarea_6_2/src/components/InputForm.tsx:62 | the employee flag is a plain suffix test: "a@xumg.com" is a valid address, and it counts as an employee's although its domain is not umg.com |
| RegistrationForm.Validate | tarea_6_2/src/components/InputForm.tsx:65-69 | each field's message is empty exactly when that field is accepted (pattern, age 18..120, code length for employees) |
| RegistrationForm.HandleChange | tarea_6_2/src/components/InputForm.tsx:50-57 | the named field takes the new value. Its error and the submit error are cleared. Every other field and error is unchanged, and so are the login flags |
| RegistrationForm.HandleSubmit | tarea_6_2/src/components/InputForm.tsx:59-80 | errors become the three validators' results, so each field shows its validator's message and the message is empty exactly when the field is accepted. If all fields are accepted, the user is logged in and the employee flag is exactly the suffix test. Otherwise the submit error is set and neither flag changes |
| RegistrationForm.SubmitIdempotent | tarea_6_2/src/components/InputForm.tsx:59-80 | submitting twice has the effect of submitting once |
| RegistrationForm.InitialSubmitFails | tarea_6_2/src/components/InputForm.tsx:9-21 | the empty initial form cannot log in; submitting it shows the submit error |
| PyJson.FalsyValues | final_project/app_prod/app/routes/flights.py:89 | `not data` holds for exactly seven JSON values: `None`, `False`, `0`, `0.0`, `""`, `[]` and `{}` |
| PyJson.Contains | final_project/app_prod/app/routes/flights.py:89 | `key in data`: on a dict, key membership; raises exactly when the body is neither dict, list nor string |
| PyJson.ContainsAll | final_project/app_prod/app/routes/flights.py:89 | `all(field in data ...)` on a dict, list or string is true exactly when `in` finds every listed key; on any other value it raises at the first key |
| PyJson.ContainsAllOnDict | final_project/app_prod/app/routes/flights.py:89 | on a dict, `all(field in data ...)` is true exactly when every listed key is present |
| PyJson.Index | final_project/app_prod/app/routes/flights.py:93 | `data[k]` on a dict gives the entry or raises `KeyError(k)`; on anything else raises `TypeError` |
| PyJson.FirstAbsent | final_project/app_prod/app/routes/airports.py:79-81 | when keys are indexed in order, the first absent one is the one that raises |
| Http.Insert | final_project/app_prod/app/routes/airlines.py:60-72 | falsy body gives 400. A truthy body gives 400 iff it is a dict, list or string in which `in` misses a required key, and the 500 error page if `in` cannot be applied to it. A dict body gives 400 iff it is empty or lacks a required key. Otherwise a build error gives 500 with `str(e)`, a commit failure gives 500 with its text, and success gives 201 and appends the record. The table changes iff the status is 201 |
| Airlines.Build | final_project/app_prod/app/routes/airlines.py:64-67 | a dict with both keys builds the record of exactly `iata_code` and `airline`; any other value raises |
| Airlines.Post | final_project/app_prod/app/routes/airlines.py:60-72 | 400 for a falsy body; on a dict body, 400 iff it lacks `iata_code` or `airline`; 201 appends the two-key record; commit failure gives 500 with the error text and leaves the table alone |
| Airlines.OtherKeysIgnored | final_project/app_prod/app/routes/airlines.py:64-67 | two bodies that agree on `iata_code` and `airline` get the same response and table |
| Airlines.List | final_project/app_prod/app/routes/airlines.py:74-75 | one object per row in table order, each with exactly the keys `iata_code` and `airline` and the row's values |
| Airlines.ListThenBuild | final_project/app_prod/app/routes/airlines.py:74-75 | posting back a listed object rebuilds exactly that row |
| Airlines.Handle | final_project/app_prod/app/routes/airlines.py:58-75 | GET answers 200 with one two-key object per row and leaves the table unchanged; POST is `Airlines.Post` |
| Airports.Build | final_project/app_prod/app/routes/airports.py:74-82 | a dict with all six indexed keys builds the record, with `state` defaulting to `None`; otherwise the first absent indexed key raises `KeyError`; a non-dict raises `TypeError` |
| Airports.Post | final_project/app_prod/app/routes/airports.py:70-87 | 400 for a falsy body; on a dict body, 400 iff it lacks `iata_code`, `airport` or `city`. 201 only for a dict holding all six indexed keys, appending its record. Commit failure gives 500 |
| Airports.MissingCountryIsServerError | final_project/app_prod/app/routes/airports.py:71-87 | every dict body holding `iata_code`, `airport` and `city` but not `country` passes the check and gets 500 with `'country'` |
| Airports.GuatemalaWithoutCountry | final_project/app_prod/app/routes/airports.py:71-87 | the body `{"iata_code": "GUA", "airport": "La Aurora", "city": "Guatemala"}` gets 500 with `'country'` |
| Airports.PostChecked | final_project/app_prod/app/routes/airports.py:71-81 | corrected check over all six indexed keys: 400 iff one is absent, and a 500 on a dict body can only come from the commit |
| Airports.CheckedDiffersOnlyOnIncompleteBodies | final_project/app_prod/app/routes/airports.py:71-81 | the as-written and corrected handlers agree on every body except those that pass the 3-key `in` test but not the 6-key one, which get 500 as written and 400 when corrected. On a dict these are the bodies that lack `country`, `latitude` or `longitude`; a list holding the three key strings is another |
| Airports.List | final_project/app_prod/app/routes/airports.py:89-98 | one object per row in table order with exactly the seven column keys and the row's values |
| Airports.ListThenBuild | final_project/app_prod/app/routes/airports.py:89-98 | posting back a listed object rebuilds exactly that row |
| Airports.Handle | final_project/app_prod/app/routes/airports.py:68-98 | GET answers 200 with one seven-key object per row and leaves the table unchanged; POST is `Airports.Post` |
| Flights.ParseTime | final_project/app_prod/app/routes/flights.py:106 | an absent or falsy date-time gives `None`; a truthy non-string raises `TypeError`; a string gives the parser's result or its `ValueError` |
| Flights.Record | final_project/app_prod/app/routes/flights.py:92-124 | required columns copied from the body. Optional columns take the entry or `None`. `diverted` and `cancelled` default to `False` |
| Flights.Build | final_project/app_prod/app/routes/flights.py:92-124 | on a dict with the 11 required keys, construction succeeds iff every present, truthy date-time parses, and then yields the row `Stores` describes; a non-dict raises `TypeError` |
| Flights.Post | final_project/app_prod/app/routes/flights.py:83-129 | 400 for a falsy body; on a dict body, 400 iff it lacks one of the 11 required keys. Otherwise 201 iff all date-times parse and the commit succeeds; every other case is 500 with an error text. 201 appends the row `Stores` describes |
| Flights.MissingRequiredRejected | final_project/app_prod/app/routes/flights.py:86-90 | a body missing any one required key gets 400 and leaves the table alone, whatever else it holds |
| Flights.Project | final_project/app_prod/app/routes/flights.py:132-147 | a listed flight has exactly the 13 keys `id` … `departure_delay`, each holding the row's value |
| Flights.List | final_project/app_prod/app/routes/flights.py:131-147 | one projected object per row, in table order |
| Flights.ListedFlightPassesCheck | final_project/app_prod/app/routes/flights.py:131-147 | every listed object holds all 11 required keys, so posting it back is never a 400 |
| Flights.Handle | final_project/app_prod/app/routes/flights.py:82-147 | GET answers 200 with the listing and leaves the table unchanged; POST is `Flights.Post` |
| PyInt.ParseIntAccepts | final_project/app_prod/app.py:160 | `int()` accepts exactly the strings that, stripped of surrounding white space, are one optional sign followed by ASCII digits with single underscores between them; the result is negative only after a `-` |
| PyInt.SeparatorNotSkipped | final_project/app_prod/app.py:160 | `int()` skips a tab or a no-break space next to the numeral, but rejects `"\x1c5"` and `"5\x1f"`, since the ASCII separators U+001C to U+001F are not white space to it |
| PyInt.ParseIntRoundTrip | final_project/app_prod/app.py:160 | `int()` reads back the decimal numeral of every integer (no length limit; see Left out) |
| PyInt.UnderscoreSeparated | final_project/app_prod/app.py:160 | `PORT=8_080` reads as 8080 |
| PyInt.BlankRejected | final_project/app_prod/app.py:160 | an empty or blank `PORT` raises `ValueError` |
| App.Missing | final_project/app_prod/app.py:12 | the missing names are exactly the listed ones that are unset or empty, kept in list order |
| Text.Join | final_project/app_prod/app.py:14 | `', '.join(names)`: empty for no names, the name itself for one; otherwise it starts with the first name, ends with the last, has the separator right after the first, and is as long as the names plus one separator between each pair |
| App.LoadDatabase | final_project/app_prod/app.py:11-24 | start-up fails iff one of DB_USER, DB_PASSWORD, DB_HOST, DB_NAME is unset or empty. The message is the prefix plus the missing names joined by ", ". DB_PORT defaults to "3306" |
| App.OnlyPasswordMissing | final_project/app_prod/app.py:11-14 | with only DB_PASSWORD unset or empty, the message names it alone |
| App.NothingSet | final_project/app_prod/app.py:11-14 | with an empty environment all four names are listed, in order |
| App.ConnectionUri | final_project/app_prod/app.py:27 | the URI starts with `mysql+pymysql://` and the user followed by `:`, ends with `/` and the database name, and is as long as the five settings plus the scheme and four separators |
| App.UriRoundTrip | final_project/app_prod/app.py:27 | the URI format is injective on settings whose parts hold no separator that ends them: the five parts can be cut back out of it |
| App.UnescapedPasswordIsAmbiguous | final_project/app_prod/app.py:27 | nothing is escaped, so a password containing `@` gives the same URI as different settings |
| App.ServerPort | final_project/app_prod/app.py:160 | PORT unset gives 5000. PORT set to the decimal numeral of an integer n gives n. A blank PORT fails start-up, and so does any PORT that the model of `int()` rejects (ASCII digits only, no length limit) |
| App.DebugMode | final_project/app_prod/app.py:161 | debug mode needs `DEBUG` to be set, to a value of one or four characters; when set, it is on exactly when the lowered value is "true", "1" or "t" |
| App.DebugModeCases | final_project/app_prod/app.py:161 | debug is off when DEBUG is unset (default "False"), off for "" and "0", and on for "TRUE", "T", "1" and any spelling whose lowercase is "true" |
| App.Start | final_project/app_prod/app.py:159-162 | the import-time check runs first. A successful start carries the database settings, their URI, host 0.0.0.0, the port from `PORT` and the debug flag from `DEBUG`. With all four variables set and PORT unset, it starts on 5000 |
| App.HandleAirlines | final_project/app_prod/app.py:105-122 | the monolith's airline route: 400 for a falsy body; on a dict body, 400 iff it lacks `iata_code` or `airline`; 201 appends the two-key record |
| App.HandleAirports | final_project/app_prod/app.py:125-155 | the monolith's airport route: 400 for a falsy body; on a dict body, 400 iff it lacks `iata_code`, `airport` or `city`; a dict that passes but lacks `country`, `latitude` or `longitude` gets 500 |

## Left out

- Database work is not modelled: sessions, `create_all`, queries and constraints. A table is a sequence of rows, and a successful POST appends its row at the end. The queries have no `ORDER BY`, so the database may list rows in another order, for instance by primary key: a new airline "AAA" may be listed before an existing "UA". The listing models keep the model's table order. A commit either succeeds or fails with a message. Integrity and type errors the database raises on commit, such as a duplicate `iata_code` or a NOT NULL column, fall under that failure. The column nullability in `models.py` differs from `app.py`; that difference also only shows up through the commit outcome.
- The database's coercion of stored values is not modelled. Rows hold the values the body supplied, and the flight id is a parameter.
- Flask plumbing is not modelled: routing, `jsonify`, the Swagger metadata, blueprint registration, the `/` page and `config.py`. An exception outside a handler's `try` becomes Flask's generic 500 page, whose content is not modelled.
- `request.get_json()` is modelled by its decoded result. A request with no JSON body is not modelled: from Flask 2.1 on, a missing or non-JSON content type or a body that does not decode is answered by Flask itself (400, or 415 from Werkzeug 2.3) before the handler's own check runs. JSON objects with duplicate keys are not modelled either.
- The `TypeError` texts follow current CPython wording. They only affect the text of a 500 reply.
- Floating-point values, including latitude, longitude and distance, are held as the exact value of the double the JSON decoder produced. The rounding of a decimal literal to that double is not modelled, so `1e-400` is written `Float(0.0)`. A value is falsy exactly when it is zero. Values the decoder gives that are not finite are not modelled: a literal too large for a double, such as `1e400`, decodes to an infinity, and the non-standard literals `NaN`, `Infinity` and `-Infinity` are accepted too. All of these are truthy in Python.
- `datetime.fromisoformat` is a parameter, not a model of ISO 8601 parsing.
- JsParseInt.ParseInt: returns the exact integer rather than the nearest double, and folds `-0` into 0. Both preserve order, so every comparison the age check makes comes out the same.
- PyInt.ParseInt: does not accept the non-ASCII decimal digits Python's `int()` also reads, such as the fullwidth "５０００". It also reads decimal strings of any length, while CPython 3.11 and later raise `ValueError` above 4300 digits (the default of `sys.get_int_max_str_digits`).
- PyInt.ParseIntAccepts: the strings it says `int()` accepts are those with ASCII digits only, and of any length. Python also accepts other Unicode decimal digits, and CPython 3.11 and later reject more than 4300 digits.
- PyInt.ParseIntRoundTrip: reads back the numeral of every integer. CPython 3.11 and later raise `ValueError` for numerals of more than 4300 digits.
- App.Start: takes its port from `App.ServerPort` and shares its two gaps.
- App.ServerPort: a `PORT` of more than 4300 digits gives a port in the model, where CPython 3.11 and later fail at start-up. A `PORT` written in non-ASCII decimal digits fails start-up in the model, where Python reads it and starts the server.
- Text.Lower: lowers ASCII letters only. No other character lowercases into the letters of "true", "1" or "t", so the DEBUG test decides the same.
- `load_dotenv` is not modelled: the environment map is the one after the `.env` file is loaded.
- Whether the OS accepts the port `app.run` binds is not modelled.
- React rendering, the fetches in `ProductList.tsx` and `EmployeList.tsx`, and `console.log` are not modelled. `App.tsx` enters only as the initial `isLogin`/`isEmployee` values (false) that the form sets.
- RegistrationForm.HandleChange: the input name is one of the three form fields. Every input in the form has one of those names, so a fourth key never arises.

## Findings

| source | as written | input that shows it | evidently intended | confidence | as-written member | corrected member |
|---|---|---|---|---|---|---|
| final_project/app_prod/app/routes/airports.py:71-81 | the POST check tests `iata_code`, `airport` and `city`, but the constructor also indexes `country`, `latitude` and `longitude` | `{"iata_code": "GUA", "airport": "La Aurora", "city": "Guatemala"}` is answered 500 with `'country'` | a body missing any indexed key is answered 400 like the other incomplete bodies | medium, not executed | Airports.MissingCountryIsServerError | Airports.PostChecked |

The same check appears in `app.py:128-144` and is modelled by `App.HandleAirports`. The route
models (`Airports.Handle`, `App.HandleAirports`) keep the as-written check, because that is what
the application runs. `Airports.PostChecked` is the corrected handler.
`Airports.CheckedDiffersOnlyOnIncompleteBodies` proves the two answer differently only on bodies
that pass the three-key `in` test but not the six-key one. On a dict these are the bodies that lack
`country`, `latitude` or `longitude`. A list holding the three key strings is another: it fails
at the first subscript as written and gets 400 when corrected. On every other body the two agree.

=== FILE: airlines.dfy ===
/** The `/api/airlines` route: POST adds one airline, GET lists them all. */
module Airlines {
  import opened Wrappers
  import opened PyJson
  import opened Http

  /** A row of the `airlines` table, with the values as the request supplied them. */
  datatype Airline = Airline(iataCode: Value, airline: Value)

  const Required: seq<string> := ["iata_code", "airline"]
  const AddedText := "Airline added successfully"

  /** The record built from the body's `iata_code` and `airline` entries; subscripting raises when
      a key is absent or the body is not a dict. */
  function Build(data: Value): (r: Result<Airline, Exception>)
    ensures data.Dict? && "iata_code" in data.entries && "airline" in data.entries ==>
              r == Ok(Airline(data.entries["iata_code"], data.entries["airline"]))
    ensures r.Ok? <==> data.Dict? && "iata_code" in data.entries && "airline" in data.entries
  {
    var code :- Index(data, "iata_code");
    var name :- Index(data, "airline");
    Ok(Airline(code, name))
  }

  /** The POST branch. */
  function Post(data: Value, table: seq<Airline>, commit: Commit): (r: Outcome<Airline>)
    ensures !Truthy(data) ==> r == Outcome(BadRequest, table)
    ensures data.Dict? ==>
              (r.response == BadRequest <==> "iata_code" !in data.entries || "airline" !in data.entries)
    ensures data.Dict? && "iata_code" in data.entries && "airline" in data.entries ==>
              && (commit.Committed? ==>
                    r == Outcome(Response(201, Message(AddedText)),
                                 table + [Airline(data.entries["iata_code"], data.entries["airline"])]))
              && (commit.CommitFailed? ==>
                    r == Outcome(Response(500, ErrorMessage(commit.message)), table))
    ensures r.response.status == 201 ==> data.Dict?
    ensures r.response.status != 201 ==> r.table == table
  {
    Insert(data, Required, Build(data), table, commit, AddedText)
  }

  /** Keys other than the two the record is built from make no difference to the request. */
  lemma OtherKeysIgnored(m: map<string, Value>, m': map<string, Value>, table: seq<Airline>, commit: Commit)
    requires forall k :: k in Required ==> (k in m <==> k in m') && (k in m ==> m[k] == m'[k])
    ensures Post(Dict(m), table, commit) == Post(Dict(m'), table, commit)
  {
    assert "iata_code" in Required && "airline" in Required;
  }

  /** One object per row, in table order, with exactly the keys `iata_code` and `airline`. */
  function List(table: seq<Airline>): (r: seq<map<string, Value>>)
    ensures |r| == |table|
    ensures forall i :: 0 <= i < |r| ==> r[i].Keys == {"iata_code", "airline"}
    ensures forall i :: 0 <= i < |r| ==>
              r[i]["iata_code"] == table[i].iataCode && r[i]["airline"] == table[i].airline
  {
    seq(|table|, i requires 0 <= i < |table| =>
      map["iata_code" := table[i].iataCode, "airline" := table[i].airline])
  }

  /** Posting back an object of the listing rebuilds the same row. */
  lemma ListThenBuild(table: seq<Airline>, i: int)
    requires 0 <= i < |table|
    ensures Build(Dict(List(table)[i])) == Ok(table[i])
  {
  }

  /** `handle_airlines`: GET lists without touching the table, POST inserts. */
  function Handle(verb: Verb, data: Value, table: seq<Airline>, commit: Commit): (r: Outcome<Airline>)
    ensures verb == GET ==> && r.table == table && r.response == Response(200, Listing(List(table)))
                            && |r.response.payload.items| == |table|
                            && forall i :: 0 <= i < |table| ==>
                                 r.response.payload.items[i].Keys == {"iata_code", "airline"}
    ensures verb == POST ==> r == Post(data, table, commit)
  {
    match verb
    case GET => Outcome(Response(200, Listing(List(table))), table)
    case POST => Post(data, table, commit)
  }
}

=== FILE: airports.dfy ===
/** The `/api/airports` route: POST adds one airport, GET lists them all. The POST check tests
    three keys, but the record is built by indexing three more. */
module Airports {
  import opened Wrappers
  import opened PyJson
  import opened Http

  /** A row of the `airports` table. Latitude and longitude are floats the model never computes
      with, so they stay opaque values. */
  datatype Airport = Airport(iataCode: Value, airport: Value, city: Value, state: Value,
                             country: Value, latitude: Value, longitude: Value)

  /** The keys the handler checks before building the record. */
  const Required: seq<string> := ["iata_code", "airport", "city"]

  /** The keys the constructor indexes directly, so a body must hold all of them to be stored. */
  const Indexed: seq<string> := ["iata_code", "airport", "city", "country", "latitude", "longitude"]

  const AddedText := "Airport added successfully"

  /** The record a dict body holding every indexed key builds; `state` is optional. */
  function Record(m: map<string, Value>): Airport
    requires HasAll(m, Indexed)
  {
    Airport(m["iata_code"], m["airport"], m["city"], if "state" in m then m["state"] else Null,
            m["country"], m["latitude"], m["longitude"])
  }

  /** The constructor call, its arguments evaluated left to right: `data.get('state')` for the
      state and `data[k]` for every other column, so on a dict the first absent indexed key
      raises `KeyError`, and on any other value the first subscript raises `TypeError`. */
  function Build(data: Value): (r: Result<Airport, Exception>)
    ensures data.Dict? && HasAll(data.entries, Indexed) ==> r == Ok(Record(data.entries))
    ensures data.Dict? && !HasAll(data.entries, Indexed) ==>
              r.Err? && r.error.KeyError? && r.error.key in Indexed && r.error.key !in data.entries
              && forall j :: 0 <= j < |Indexed| && Indexed[j] == r.error.key ==>
                   forall i :: 0 <= i < j ==> Indexed[i] in data.entries
    ensures !data.Dict? ==> r.Err? && r.error.TypeError?
  {
    match data
    case Dict(m) =>
      if HasAll(m, Indexed) then Ok(Record(m)) else Err(KeyError(Indexed[FirstAbsent(m, Indexed)]))
    case _ => Err(Index(data, "iata_code").error)
  }

  /** The POST branch as written. */
  function Post(data: Value, table: seq<Airport>, commit: Commit): (r: Outcome<Airport>)
    ensures !Truthy(data) ==> r == Outcome(BadRequest, table)
    ensures data.Dict? ==> (r.response == BadRequest <==> !HasAll(data.entries, Required))
    ensures data.Dict? && HasAll(data.entries, Indexed) ==>
              && (commit.Committed? ==>
                    r == Outcome(Response(201, Message(AddedText)), table + [Record(data.entries)]))
              && (commit.CommitFailed? ==>
                    r == Outcome(Response(500, ErrorMessage(commit.message)), table))
    ensures r.response.status == 201 ==> data.Dict? && HasAll(data.entries, Indexed)
    ensures r.response.status != 201 ==> r.table == table
  {
    assert "iata_code" in Required;
    Insert(data, Required, Build(data), table, commit, AddedText)
  }

  /** Every dict body that holds `iata_code`, `airport` and `city` but not `country` passes the
      check and is answered 500 with the text of the `KeyError`, not 400. */
  lemma MissingCountryIsServerError(m: map<string, Value>, table: seq<Airport>, commit: Commit)
    requires "iata_code" in m && "airport" in m && "city" in m && "country" !in m
    ensures Post(Dict(m), table, commit) == Outcome(Response(500, ErrorMessage("'country'")), table)
  {
    var body := Dict(m);
    var built := Build(body);
    assert built == Err(KeyError("country")) by {
      assert Indexed[3] == "country";
      assert Indexed[0] in m && Indexed[1] in m && Indexed[2] in m;
    }
    var r := Insert(body, Required, built, table, commit, AddedText);
    assert r == Outcome(Failure(KeyError("country")), table) by {
      assert |m| > 0 by {
        assert "iata_code" in m;
      }
      assert HasAll(m, Required);
    }
    assert Failure(KeyError("country")) == Response(500, ErrorMessage("'country'")) by {
      assert ExceptionText(KeyError("country")) == "'country'";
    }
    assert Post(body, table, commit) == r;
  }

  /** The airport of Guatemala City without its country is answered 500 with `'country'`. */
  lemma GuatemalaWithoutCountry(table: seq<Airport>, commit: Commit)
    ensures var body := Dict(map["iata_code" := Str("GUA"), "airport" := Str("La Aurora"),
                                 "city" := Str("Guatemala")]);
            Post(body, table, commit) == Outcome(Response(500, ErrorMessage("'country'")), table)
  {
    var m := map["iata_code" := Str("GUA"), "airport" := Str("La Aurora"), "city" := Str("Guatemala")];
    MissingCountryIsServerError(m, table, commit);
  }

  /** The POST branch with every indexed key checked up front, as the record needs. */
  function PostChecked(data: Value, table: seq<Airport>, commit: Commit): (r: Outcome<Airport>)
    ensures !Truthy(data) ==> r == Outcome(BadRequest, table)
    ensures data.Dict? ==> (r.response == BadRequest <==> !HasAll(data.entries, Indexed))
    ensures data.Dict? && r.response.status == 500 ==> commit.CommitFailed?
    ensures data.Dict? && HasAll(data.entries, Indexed) && commit.Committed? ==>
              r == Outcome(Response(201, Message(AddedText)), table + [Record(data.entries)])
    ensures r.response.status != 201 ==> r.table == table
  {
    assert "iata_code" in Indexed;
    Insert(data, Indexed, Build(data), table, commit, AddedText)
  }

  /** A body passes the three-key test but fails the six-key one: a truthy value that `in` finds
      all of `iata_code`, `airport` and `city` in, but not all indexed keys. */
  predicate PassesOnlyShortCheck(data: Value) {
    Truthy(data) && ContainsAll(data, Required) == Ok(true) && ContainsAll(data, Indexed) == Ok(false)
  }

  /** The two handlers differ only on bodies that pass the three-key check but not the six-key
      one (on a dict: it lacks `country`, `latitude` or `longitude`; a list of the three key
      strings is another such body). There the as-written handler answers 500 and the checked
      one 400; on every other body they agree. */
  lemma CheckedDiffersOnlyOnIncompleteBodies(data: Value, table: seq<Airport>, commit: Commit)
    ensures PassesOnlyShortCheck(data) ==>
              Post(data, table, commit).response.status == 500
              && PostChecked(data, table, commit) == Outcome(BadRequest, table)
    ensures !PassesOnlyShortCheck(data) ==> PostChecked(data, table, commit) == Post(data, table, commit)
    ensures data.Dict? ==> (PassesOnlyShortCheck(data) <==> HasAll(data.entries, Required) && !HasAll(data.entries, Indexed))
  {
    if data.Dict? {
      ContainsAllOnDict(data.entries, Required);
      ContainsAllOnDict(data.entries, Indexed);
    }
    var built := Build(data);
    assert Post(data, table, commit) == Insert(data, Required, built, table, commit, AddedText);
    assert PostChecked(data, table, commit) == Insert(data, Indexed, built, table, commit, AddedText);
    if Truthy(data) && !Iterable(data) {
      assert ContainsAll(data, Required).Err? && ContainsAll(data, Indexed).Err? by {
        assert |Required| > 0 && |Indexed| > 0;
      }
    } else if Truthy(data) {
      var short := ContainsAll(data, Required);
      var full := ContainsAll(data, Indexed);
      assert full.value ==> short.value by {
        assert forall k :: k in Required ==> k in Indexed;
      }
      if short.value && !full.value {
        assert built.Err? by {
          if data.Dict? {
            assert !HasAll(data.entries, Indexed);
          }
        }
      }
    }
  }

  /** One object per row, in table order, with exactly the seven column keys. */
  function List(table: seq<Airport>): (r: seq<map<string, Value>>)
    ensures |r| == |table|
    ensures forall i :: 0 <= i < |r| ==>
              r[i].Keys == {"iata_code", "airport", "city", "state", "country", "latitude", "longitude"}
    ensures forall i :: 0 <= i < |r| ==>
              && r[i]["iata_code"] == table[i].iataCode && r[i]["airport"] == table[i].airport
              && r[i]["city"] == table[i].city && r[i]["state"] == table[i].state
              && r[i]["country"] == table[i].country && r[i]["latitude"] == table[i].latitude
              && r[i]["longitude"] == table[i].longitude
  {
    seq(|table|, i requires 0 <= i < |table| =>
      map["iata_code" := table[i].iataCode, "airport" := table[i].airport, "city" := table[i].city,
          "state" := table[i].state, "country" := table[i].country,
          "latitude" := table[i].latitude, "longitude" := table[i].longitude])
  }

  /** Posting back an object of the listing rebuilds the same row. */
  lemma ListThenBuild(table: seq<Airport>, i: int)
    requires 0 <= i < |table|
    ensures Build(Dict(List(table)[i])) == Ok(table[i])
  {
    var m := List(table)[i];
    assert HasAll(m, Indexed);
  }

  /** `handle_airports`: GET lists without touching the table, POST inserts. */
  function Handle(verb: Verb, data: Value, table: seq<Airport>, commit: Commit): (r: Outcome<Airport>)
    ensures verb == GET ==> && r.table == table && r.response == Response(200, Listing(List(table)))
                            && |r.response.payload.items| == |table|
                            && forall i :: 0 <= i < |table| ==>
                                 r.response.payload.items[i].Keys
                                   == {"iata_code", "airport", "city", "state", "country", "latitude", "longitude"}
    ensures verb == POST ==> r == Post(data, table, commit)
  {
    match verb
    case GET => Outcome(Response(200, Listing(List(table))), table)
    case POST => Post(data, table, commit)
  }
}

=== FILE: app.dfy ===
/** The monolithic application module: the start-up checks on the environment, the database
    connection URI, the server settings read under `__main__`, and its own copies of the
    airline and airport routes. */
module App {
  import opened Wrappers
  import opened Text
  import opened PyJson
  import opened Http
  import Airlines
  import Airports
  import PyInt
  import Numerals

  /** The process environment: a variable is either absent or bound to a string. */
  type Env = map<string, string>

  const RequiredVars: seq<string> := ["DB_USER", "DB_PASSWORD", "DB_HOST", "DB_NAME"]
  const MissingVarsPrefix := "Faltan variables de entorno requeridas: "
  const DefaultDbPort := "3306"
  const DefaultPort := 5000
  const DefaultDebug := "False"
  const ListenHost := "0.0.0.0"

  /** `os.getenv(name)` is truthy: the variable is bound to a non-empty string. */
  predicate IsSet(env: Env, name: string) {
    name in env && |env[name]| > 0
  }

  /** `xs` is `ys` with some elements left out, the rest kept in order. */
  predicate IsSubsequence(xs: seq<string>, ys: seq<string>)
    decreases |ys|
  {
    |xs| == 0 || (|ys| > 0 && if xs[0] == ys[0] then IsSubsequence(xs[1..], ys[1..]) else IsSubsequence(xs, ys[1..]))
  }

  /** The names, in list order, whose variable is unset or bound to the empty string. */
  function Missing(env: Env, names: seq<string>): (r: seq<string>)
    ensures IsSubsequence(r, names)
    ensures forall v :: v in r <==> v in names && !IsSet(env, v)
  {
    if |names| == 0 then []
    else
      var rest := Missing(env, names[1..]);
      assert forall v :: v in names <==> v == names[0] || v in names[1..];
      if !IsSet(env, names[0]) then
        assert ([names[0]] + rest)[1..] == rest;
        [names[0]] + rest
      else
        assert |rest| > 0 ==> rest[0] != names[0];
        rest
  }

  /** The database settings the module reads. */
  datatype DbSettings = DbSettings(user: string, password: string, host: string, port: string, name: string)

  datatype StartupError =
    | MissingVariables(message: string)  // the `EnvironmentError` raised on import
    | InvalidPort(value: string)         // the `ValueError` of `int(PORT)` under `__main__`

  /** The check on import and the settings read after it. Start-up fails exactly when one of the
      four required variables is unset or empty, and the message names the missing ones in the
      order they are listed; `DB_PORT` defaults to 3306. */
  function LoadDatabase(env: Env): (r: Result<DbSettings, StartupError>)
    ensures r.Err? <==> exists v :: v in RequiredVars && !IsSet(env, v)
    ensures r.Err? ==> r.error == MissingVariables(MissingVarsPrefix + Join(Missing(env, RequiredVars), ", "))
    ensures r.Ok? ==> && IsSet(env, "DB_USER") && r.value.user == env["DB_USER"]
                      && IsSet(env, "DB_PASSWORD") && r.value.password == env["DB_PASSWORD"]
                      && IsSet(env, "DB_HOST") && r.value.host == env["DB_HOST"]
                      && IsSet(env, "DB_NAME") && r.value.name == env["DB_NAME"]
    ensures r.Ok? && "DB_PORT" !in env ==> r.value.port == DefaultDbPort
    ensures r.Ok? && "DB_PORT" in env ==> r.value.port == env["DB_PORT"]
  {
    var missing := Missing(env, RequiredVars);
    if |missing| > 0 then
      assert missing[0] in missing;
      Err(MissingVariables(MissingVarsPrefix + Join(missing, ", ")))
    else
      assert forall v :: v in RequiredVars ==> IsSet(env, v);
      assert IsSet(env, "DB_USER") && IsSet(env, "DB_PASSWORD") && IsSet(env, "DB_HOST") && IsSet(env, "DB_NAME");
      Ok(DbSettings(env["DB_USER"], env["DB_PASSWORD"], env["DB_HOST"], GetOr(env, "DB_PORT", DefaultDbPort), env["DB_NAME"]))
  }

  /** With only the password unset, the message names it alone. */
  lemma OnlyPasswordMissing(env: Env)
    requires IsSet(env, "DB_USER") && IsSet(env, "DB_HOST") && IsSet(env, "DB_NAME")
    requires "DB_PASSWORD" !in env || env["DB_PASSWORD"] == ""
    ensures LoadDatabase(env) == Err(MissingVariables(MissingVarsPrefix + "DB_PASSWORD"))
  {
    assert Missing(env, RequiredVars[3..]) == [];
    assert Missing(env, RequiredVars[2..]) == [];
    assert Missing(env, RequiredVars[1..]) == ["DB_PASSWORD"];
  }

  /** With nothing set, all four names are listed, in order. */
  lemma NothingSet()
    ensures Missing(map[], RequiredVars) == RequiredVars
    ensures LoadDatabase(map[]) == Err(MissingVariables(MissingVarsPrefix + Join(RequiredVars, ", ")))
  {
    var env: Env := map[];
    var names := RequiredVars;
    assert Missing(env, names[4..]) == [];
    assert Missing(env, names[3..]) == ["DB_NAME"] by {
      assert names[3..][1..] == names[4..];
    }
    assert Missing(env, names[2..]) == ["DB_HOST", "DB_NAME"] by {
      assert names[2..][1..] == names[3..];
    }
    assert Missing(env, names[1..]) == ["DB_PASSWORD", "DB_HOST", "DB_NAME"] by {
      assert names[1..][1..] == names[2..];
    }
  }

  const UriScheme := "mysql+pymysql://"

  /** The MySQL connection URI for the PyMySQL driver: the five settings placed between fixed
      separators, none of them escaped. */
  function ConnectionUri(s: DbSettings): (r: string)
    ensures |r| == |UriScheme| + |s.user| + |s.password| + |s.host| + |s.port| + |s.name| + 4
    ensures r[..|UriScheme|] == UriScheme
    ensures r[|UriScheme|..|UriScheme| + |s.user|] == s.user && r[|UriScheme| + |s.user|] == ':'
    ensures Text.EndsWith(r, "/" + s.name)
  {
    UriScheme + s.user + ":" + s.password + "@" + s.host + ":" + s.port + "/" + s.name
  }

  /** Splits `s` at the first `c`: the part before and the part after. */
  function SplitFirst(s: string, c: char): (r: Option<(string, string)>)
    ensures r.None? <==> c !in s
    ensures r.Some? ==> s == r.value.0 + [c] + r.value.1 && c !in r.value.0
  {
    if |s| == 0 then None
    else if s[0] == c then Some(([], s[1..]))
    else
      match SplitFirst(s[1..], c)
      case None => None
      case Some((before, after)) =>
        assert s == [s[0]] + s[1..];
        Some(([s[0]] + before, after))
  }

  /** Cuts a URI of that shape into five parts: at the first `:` for the user, the next `@` for
      the password, the next `:` for the host and the next `/` for the port. This is the model's
      own inverse of `ConnectionUri`, not the driver's URL reader (which, for one, ends the host
      at `/` or `?` and reads `?...` as a query); `UriRoundTrip` uses it to show that the format
      loses nothing when no part holds the separator that ends it. */
  function ParseUri(uri: string): Option<DbSettings> {
    if !(|UriScheme| <= |uri| && uri[..|UriScheme|] == UriScheme) then None
    else
      match SplitFirst(uri[|UriScheme|..], ':')
      case None => None
      case Some((user, r1)) =>
        match SplitFirst(r1, '@')
        case None => None
        case Some((password, r2)) =>
          match SplitFirst(r2, ':')
          case None => None
          case Some((host, r3)) =>
            match SplitFirst(r3, '/')
            case None => None
            case Some((port, name)) => Some(DbSettings(user, password, host, port, name))
  }

  /** Splitting `a + [c] + b` at the first `c` gives back `a` and `b` when `a` holds no `c`. */
  lemma {:induction false} SplitFirstOfJoin(a: string, c: char, b: string)
    requires c !in a
    ensures SplitFirst(a + [c] + b, c) == Some((a, b))
  {
    var s := a + [c] + b;
    if |a| > 0 {
      assert s[1..] == a[1..] + [c] + b;
      SplitFirstOfJoin(a[1..], c, b);
      assert [a[0]] + a[1..] == a;
    } else {
      assert s[1..] == b;
    }
  }

  /** The URI is injective on settings whose parts hold no separator that ends them: the parts
      can be cut back out of it unchanged. */
  lemma UriRoundTrip(s: DbSettings)
    requires ':' !in s.user && '@' !in s.password && ':' !in s.host && '/' !in s.port
    ensures ParseUri(ConnectionUri(s)) == Some(s)
  {
    var tail := s.user + ":" + s.password + "@" + s.host + ":" + s.port + "/" + s.name;
    assert ConnectionUri(s) == UriScheme + tail;
    assert ConnectionUri(s)[|UriScheme|..] == tail;
    var r1 := s.password + "@" + s.host + ":" + s.port + "/" + s.name;
    var r2 := s.host + ":" + s.port + "/" + s.name;
    var r3 := s.port + "/" + s.name;
    assert tail == s.user + [':'] + r1;
    assert r1 == s.password + ['@'] + r2;
    assert r2 == s.host + [':'] + r3;
    assert r3 == s.port + ['/'] + s.name;
    SplitFirstOfJoin(s.user, ':', r1);
    SplitFirstOfJoin(s.password, '@', r2);
    SplitFirstOfJoin(s.host, ':', r3);
    SplitFirstOfJoin(s.port, '/', s.name);
  }

  /** Because nothing is escaped, a password holding `@` yields the same URI as different
      settings, so the URI does not determine the password. */
  lemma UnescapedPasswordIsAmbiguous()
    ensures var a := DbSettings("u", "p@h", "x", "1", "d");
            var b := DbSettings("u", "p", "h@x", "1", "d");
            a != b && ConnectionUri(a) == ConnectionUri(b)
  {
  }

  /** Every integer's numeral in `PORT` reads back as that integer; a blank `PORT` is rejected. */
  lemma PortNumeralsRead(env: Env)
    ensures forall n: int ::
              "PORT" in env && env["PORT"] == Numerals.SignedDecimal(n) ==> PyInt.ParseInt(env["PORT"]) == Some(n)
    ensures "PORT" in env && (forall k :: 0 <= k < |env["PORT"]| ==> PyInt.IsPySpace(env["PORT"][k])) ==>
              PyInt.ParseInt(env["PORT"]).None?
  {
    forall n: int | "PORT" in env && env["PORT"] == Numerals.SignedDecimal(n)
      ensures PyInt.ParseInt(env["PORT"]) == Some(n)
    {
      PyInt.ParseIntRoundTrip(n);
    }
    if "PORT" in env && (forall k :: 0 <= k < |env["PORT"]| ==> PyInt.IsPySpace(env["PORT"][k])) {
      PyInt.BlankRejected(env["PORT"]);
    }
  }

  /** The port the server listens on: 5000 when `PORT` is unset, otherwise `PORT` read as a
      Python integer, which fails start-up when it is not one. */
  function ServerPort(env: Env): (r: Result<int, StartupError>)
    ensures "PORT" !in env ==> r == Ok(DefaultPort)
    ensures "PORT" in env ==> (r.Ok? <==> PyInt.ParseInt(env["PORT"]).Some?)
    ensures forall n: int ::
              "PORT" in env && env["PORT"] == Numerals.SignedDecimal(n) ==> r == Ok(n)
    ensures "PORT" in env && (forall k :: 0 <= k < |env["PORT"]| ==> PyInt.IsPySpace(env["PORT"][k])) ==>
              r == Err(InvalidPort(env["PORT"]))
  {
    PortNumeralsRead(env);

    if "PORT" !in env then Ok(DefaultPort)
    else
      match PyInt.ParseInt(env["PORT"])
      case None => Err(InvalidPort(env["PORT"]))
      case Some(p) => Ok(p)
  }

  /** Debug mode: `DEBUG`, or "False" when it is unset, lowered and compared with "true", "1" and
      "t". */
  predicate DebugMode(env: Env): (b: bool)
    ensures b ==> "DEBUG" in env && (|env["DEBUG"]| == 1 || |env["DEBUG"]| == 4)
    ensures "DEBUG" in env ==> (b <==> Lower(env["DEBUG"]) in ["true", "1", "t"])
  {
    assert Lower(DefaultDebug) == "false";
    Lower(GetOr(env, "DEBUG", DefaultDebug)) in ["true", "1", "t"]
  }

  /** Debug mode is off by default, and the test ignores letter case. */
  lemma DebugModeCases(env: Env, v: string)
    ensures "DEBUG" !in env ==> !DebugMode(env)
    ensures !DebugMode(env[ "DEBUG" := ""]) && !DebugMode(env[ "DEBUG" := "0"])
    ensures DebugMode(env[ "DEBUG" := "TRUE"]) && DebugMode(env[ "DEBUG" := "T"]) && DebugMode(env[ "DEBUG" := "1"])
    ensures Lower(v) == "true" ==> DebugMode(env[ "DEBUG" := v])
  {
    assert Lower(DefaultDebug) == "false";
    assert Lower("0") == "0";
    assert Lower("TRUE") == "true";
    assert Lower("T") == "t";
    assert Lower("1") == "1";
  }

  /** Everything the process needs before it starts serving. */
  datatype ServerSettings = ServerSettings(database: DbSettings, uri: string, host: string, port: int, debug: bool)

  /** Running the module as a program: the import-time check first, then `PORT` and `DEBUG`. */
  function Start(env: Env): (r: Result<ServerSettings, StartupError>)
    ensures (exists v :: v in RequiredVars && !IsSet(env, v)) ==> r.Err? && r.error.MissingVariables?
    ensures r.Ok? ==> && LoadDatabase(env) == Ok(r.value.database)
                      && r.value.uri == ConnectionUri(r.value.database)
                      && r.value.host == ListenHost
                      && ServerPort(env) == Ok(r.value.port)
                      && r.value.debug == DebugMode(env)
    ensures (forall v :: v in RequiredVars ==> IsSet(env, v)) && "PORT" !in env ==> r.Ok? && r.value.port == DefaultPort
  {
    var database :- LoadDatabase(env);
    var port :- ServerPort(env);
    Ok(ServerSettings(database, ConnectionUri(database), ListenHost, port, DebugMode(env)))
  }

  // ---------------------------------------------------------------------------------------------
  // The module's own routes, textually the same as the blueprint ones

  /** `/api/airlines` of the monolith: 400 exactly for a falsy body or one lacking `iata_code` or
      `airline`, otherwise the record of those two keys is committed. */
  function HandleAirlines(verb: Verb, data: Value, table: seq<Airlines.Airline>, commit: Commit): (r: Outcome<Airlines.Airline>)
    ensures verb == GET ==> r.table == table && r.response.status == 200
    ensures verb == POST && !Truthy(data) ==> r.response == BadRequest
    ensures verb == POST && data.Dict? ==>
              (r.response == BadRequest <==> "iata_code" !in data.entries || "airline" !in data.entries)
    ensures verb == POST && r.response.status == 201 ==>
              data.Dict? && r.table == table + [Airlines.Airline(data.entries["iata_code"], data.entries["airline"])]
  {
    Airlines.Handle(verb, data, table, commit)
  }

  /** `/api/airports` of the monolith: 400 exactly for a falsy body or one lacking `iata_code`,
      `airport` or `city`; a body that passes but lacks `country`, `latitude` or `longitude`
      is answered 500. */
  function HandleAirports(verb: Verb, data: Value, table: seq<Airports.Airport>, commit: Commit): (r: Outcome<Airports.Airport>)
    ensures verb == GET ==> r.table == table && r.response.status == 200
    ensures verb == POST && !Truthy(data) ==> r.response == BadRequest
    ensures verb == POST && data.Dict? ==>
              (r.response == BadRequest <==>
                 "iata_code" !in data.entries || "airport" !in data.entries || "city" !in data.entries)
    ensures (verb == POST && data.Dict? && HasAll(data.entries, Airports.Required)
             && !HasAll(data.entries, Airports.Indexed)) ==> r.response.status == 500 && r.table == table
  {
    assert verb == POST && data.Dict? && HasAll(data.entries, Airports.Required)
           && !HasAll(data.entries, Airports.Indexed) ==>
             Airports.Post(data, table, commit).response.status == 500 by {
      if data.Dict? {
        Airports.CheckedDiffersOnlyOnIncompleteBodies(data, table, commit);
      }
    }
    Airports.Handle(verb, data, table, commit)
  }
}

=== FILE: flights.dfy ===
/** The `/api/flights` route: POST adds one flight, GET lists them all with a fixed subset of
    their columns. */
module Flights {
  import opened Wrappers
  import opened PyJson
  import opened Http

  /** What `datetime.fromisoformat` yields; its fields are never inspected by the handler. */
  datatype DateTime = DateTime(year: int, month: int, day: int, hour: int, minute: int, second: int, microsecond: int)

  /** `datetime.fromisoformat`, an outside library function taken as a parameter: a parsed
      date-time, or the message of the `ValueError` it raises. */
  type IsoParser = string -> Result<DateTime, string>

  /** A row of the `flights` table; `id` is the key the database assigns on insert. */
  datatype Flight = Flight(
    id: int,
    year: Value, month: Value, day: Value, dayOfWeek: Value,
    airline: Value, flightNumber: Value, tailNumber: Value,
    originAirport: Value, destinationAirport: Value,
    scheduledDeparture: Value, departureTime: Value, departureDelay: Value,
    taxiOut: Value, wheelsOff: Option<DateTime>,
    scheduledTime: Value, elapsedTime: Value, airTime: Value, distance: Value,
    wheelsOn: Option<DateTime>, taxiIn: Value,
    scheduledArrival: Option<DateTime>, arrivalTime: Option<DateTime>, arrivalDelay: Value,
    diverted: Value, cancelled: Value, cancellationReason: Value,
    airSystemDelay: Value, securityDelay: Value, airlineDelay: Value,
    lateAircraftDelay: Value, weatherDelay: Value)

  /** The keys every POST body must hold. */
  const Required: seq<string> := [
    "year", "month", "day", "day_of_week", "airline", "flight_number",
    "origin_airport", "destination_airport", "scheduled_departure",
    "departure_time", "departure_delay"]

  const AddedText := "Flight added successfully"

  /** A date-time column: `None` unless the body holds a truthy entry under `key`, which is then
      read by the ISO parser; a truthy entry that is not a string raises `TypeError`. */
  function ParseTime(m: map<string, Value>, key: string, fromIso: IsoParser): (r: Result<Option<DateTime>, Exception>)
    ensures key !in m || !Truthy(m[key]) ==> r == Ok(None)
    ensures key in m && Truthy(m[key]) && !m[key].Str? ==> r.Err? && r.error.TypeError?
    ensures key in m && Truthy(m[key]) && m[key].Str? ==>
              match fromIso(m[key].s)
              case Ok(t) => r == Ok(Some(t))
              case Err(msg) => r == Err(ValueError(msg))
  {
    if !Truthy(Get(m, key)) then Ok(None)
    else
      match m[key]
      case Str(s) =>
        (match fromIso(s)
         case Ok(t) => Ok(Some(t))
         case Err(msg) => Err(ValueError(msg)))
      case _ => Err(TypeError("fromisoformat: argument must be str"))
  }

  /** The date-time column `key` is absent or falsy, or holds a string the parser accepts. */
  ghost predicate TimeParses(m: map<string, Value>, key: string, fromIso: IsoParser) {
    key !in m || !Truthy(m[key]) || (m[key].Str? && fromIso(m[key].s).Ok?)
  }

  /** Every date-time column, in the order the constructor parses them, parses. */
  ghost predicate AllTimesParse(m: map<string, Value>, fromIso: IsoParser) {
    && TimeParses(m, "wheels_off", fromIso) && TimeParses(m, "wheels_on", fromIso)
    && TimeParses(m, "scheduled_arrival", fromIso) && TimeParses(m, "arrival_time", fromIso)
  }

  /** `v` is the entry of a key the body holds. */
  ghost predicate Copied(m: map<string, Value>, key: string, v: Value) {
    key in m && v == m[key]
  }

  /** `v` is what an optional key contributes: its entry, or `default` when absent. */
  ghost predicate Optional(m: map<string, Value>, key: string, default: Value, v: Value) {
    (key in m ==> v == m[key]) && (key !in m ==> v == default)
  }

  /** `t` is what a date-time key contributes: nothing when absent or falsy, otherwise the parse
      of its string. */
  ghost predicate TimeOf(m: map<string, Value>, key: string, fromIso: IsoParser, t: Option<DateTime>) {
    if key !in m || !Truthy(m[key]) then t == None
    else m[key].Str? && t.Some? && fromIso(m[key].s) == Ok(t.value)
  }

  /** The required columns of `f` are copied from body `m`. */
  ghost predicate StoresRequired(m: map<string, Value>, f: Flight) {
    && Copied(m, "year", f.year) && Copied(m, "month", f.month) && Copied(m, "day", f.day)
    && Copied(m, "day_of_week", f.dayOfWeek) && Copied(m, "airline", f.airline)
    && Copied(m, "flight_number", f.flightNumber) && Copied(m, "origin_airport", f.originAirport)
    && Copied(m, "destination_airport", f.destinationAirport)
    && Copied(m, "scheduled_departure", f.scheduledDeparture)
    && Copied(m, "departure_time", f.departureTime) && Copied(m, "departure_delay", f.departureDelay)
  }

  /** The optional columns of `f` default to `None`, and `diverted` and `cancelled` to `False`. */
  ghost predicate StoresOptional(m: map<string, Value>, f: Flight) {
    && Optional(m, "tail_number", Null, f.tailNumber) && Optional(m, "taxi_out", Null, f.taxiOut)
    && Optional(m, "scheduled_time", Null, f.scheduledTime) && Optional(m, "elapsed_time", Null, f.elapsedTime)
    && Optional(m, "air_time", Null, f.airTime) && Optional(m, "distance", Null, f.distance)
    && Optional(m, "taxi_in", Null, f.taxiIn) && Optional(m, "arrival_delay", Null, f.arrivalDelay)
    && Optional(m, "diverted", Bool(false), f.diverted) && Optional(m, "cancelled", Bool(false), f.cancelled)
    && Optional(m, "cancellation_reason", Null, f.cancellationReason)
    && Optional(m, "air_system_delay", Null, f.airSystemDelay)
    && Optional(m, "security_delay", Null, f.securityDelay)
    && Optional(m, "airline_delay", Null, f.airlineDelay)
    && Optional(m, "late_aircraft_delay", Null, f.lateAircraftDelay)
    && Optional(m, "weather_delay", Null, f.weatherDelay)
  }

  /** The date-time columns of `f` are parsed from body `m`. */
  ghost predicate StoresTimes(m: map<string, Value>, fromIso: IsoParser, f: Flight) {
    && TimeOf(m, "wheels_off", fromIso, f.wheelsOff) && TimeOf(m, "wheels_on", fromIso, f.wheelsOn)
    && TimeOf(m, "scheduled_arrival", fromIso, f.scheduledArrival)
    && TimeOf(m, "arrival_time", fromIso, f.arrivalTime)
  }

  /** The row stored for body `m`. */
  ghost predicate Stores(m: map<string, Value>, fromIso: IsoParser, id: int, f: Flight) {
    f.id == id && StoresRequired(m, f) && StoresOptional(m, f) && StoresTimes(m, fromIso, f)
  }

  /** The required keys, spelled out. */
  predicate HasRequired(m: map<string, Value>) {
    && "year" in m && "month" in m && "day" in m && "day_of_week" in m && "airline" in m
    && "flight_number" in m && "origin_airport" in m && "destination_airport" in m
    && "scheduled_departure" in m && "departure_time" in m && "departure_delay" in m
  }

  lemma HasRequiredIffHasAll(m: map<string, Value>)
    ensures HasRequired(m) <==> HasAll(m, Required)
  {
  }

  /** The row for body `m` once its four date-time columns are parsed: required columns copied,
      `data.get(k)` for the optional ones, `data.get(k, False)` for `diverted` and `cancelled`. */
  function Record(m: map<string, Value>, id: int, wheelsOff: Option<DateTime>, wheelsOn: Option<DateTime>,
                  scheduledArrival: Option<DateTime>, arrivalTime: Option<DateTime>): (f: Flight)
    requires HasRequired(m)
    ensures f.id == id && StoresRequired(m, f) && StoresOptional(m, f)
    ensures f.wheelsOff == wheelsOff && f.wheelsOn == wheelsOn
    ensures f.scheduledArrival == scheduledArrival && f.arrivalTime == arrivalTime
  {
    Flight(
      id,
      m["year"], m["month"], m["day"], m["day_of_week"],
      m["airline"], m["flight_number"], Get(m, "tail_number"),
      m["origin_airport"], m["destination_airport"],
      m["scheduled_departure"], m["departure_time"], m["departure_delay"],
      Get(m, "taxi_out"), wheelsOff,
      Get(m, "scheduled_time"), Get(m, "elapsed_time"), Get(m, "air_time"), Get(m, "distance"),
      wheelsOn, Get(m, "taxi_in"),
      scheduledArrival, arrivalTime, Get(m, "arrival_delay"),
      GetOr(m, "diverted", Bool(false)), GetOr(m, "cancelled", Bool(false)),
      Get(m, "cancellation_reason"),
      Get(m, "air_system_delay"), Get(m, "security_delay"), Get(m, "airline_delay"),
      Get(m, "late_aircraft_delay"), Get(m, "weather_delay"))
  }

  /** The constructor call. On a dict, a missing required key raises `KeyError` (the POST check
      has already excluded that); otherwise only the four date-time parses can raise, and the
      first that fails decides the exception. Any other value raises `TypeError` at `data['year']`. */
  function Build(data: Value, fromIso: IsoParser, id: int): (r: Result<Flight, Exception>)
    ensures data.Dict? && HasAll(data.entries, Required) ==>
              (r.Ok? <==> AllTimesParse(data.entries, fromIso))
              && (r.Ok? ==> Stores(data.entries, fromIso, id, r.value))
    ensures !data.Dict? ==> r.Err? && r.error.TypeError?
  {
    match data
    case Dict(m) =>
      HasRequiredIffHasAll(m);
      if !HasRequired(m) then Err(KeyError(Required[FirstAbsent(m, Required)]))
      else
        var wheelsOff :- ParseTime(m, "wheels_off", fromIso);
        var wheelsOn :- ParseTime(m, "wheels_on", fromIso);
        var scheduledArrival :- ParseTime(m, "scheduled_arrival", fromIso);
        var arrivalTime :- ParseTime(m, "arrival_time", fromIso);
        Ok(Record(m, id, wheelsOff, wheelsOn, scheduledArrival, arrivalTime))
    case _ => Err(Index(data, "year").error)
  }

  /** The POST branch. */
  function Post(data: Value, table: seq<Flight>, fromIso: IsoParser, commit: Commit, id: int): (r: Outcome<Flight>)
    ensures !Truthy(data) ==> r == Outcome(BadRequest, table)
    ensures data.Dict? ==> (r.response == BadRequest <==> !HasAll(data.entries, Required))
    ensures data.Dict? && HasAll(data.entries, Required) ==>
              (r.response.status == 201 <==> AllTimesParse(data.entries, fromIso) && commit.Committed?)
              && (r.response.status != 201 ==> r.response.status == 500 && r.response.payload.ErrorMessage?)
    ensures r.response.status == 201 ==>
              && data.Dict? && r.response.payload == Message(AddedText)
              && |r.table| == |table| + 1 && r.table[..|table|] == table
              && Stores(data.entries, fromIso, id, r.table[|table|])
    ensures r.response.status != 201 ==> r.table == table
  {
    assert "year" in Required;
    var built := Build(data, fromIso, id);
    var r := Insert(data, Required, built, table, commit, AddedText);
    if r.response.status == 201 then
      assert r.table[..|table|] == table;
      r
    else r
  }

  /** A body missing a required key is rejected whatever else it holds. */
  lemma MissingRequiredRejected(m: map<string, Value>, key: string, table: seq<Flight>,
                                fromIso: IsoParser, commit: Commit, id: int)
    requires key in Required && key !in m
    ensures Post(Dict(m), table, fromIso, commit, id) == Outcome(BadRequest, table)
  {
  }

  /** The GET projection: `id` and the twelve columns after it up to `departure_delay`. */
  const ListedKeys: set<string> := {
    "id", "year", "month", "day", "day_of_week", "airline", "flight_number", "tail_number",
    "origin_airport", "destination_airport", "scheduled_departure", "departure_time", "departure_delay"}

  function Project(f: Flight): (r: map<string, Value>)
    ensures r.Keys == ListedKeys
    ensures r["id"] == Int(f.id) && r["year"] == f.year && r["month"] == f.month && r["day"] == f.day
    ensures r["day_of_week"] == f.dayOfWeek && r["airline"] == f.airline && r["flight_number"] == f.flightNumber
    ensures r["tail_number"] == f.tailNumber && r["origin_airport"] == f.originAirport
    ensures r["destination_airport"] == f.destinationAirport
    ensures r["scheduled_departure"] == f.scheduledDeparture && r["departure_time"] == f.departureTime
    ensures r["departure_delay"] == f.departureDelay
  {
    map["id" := Int(f.id), "year" := f.year, "month" := f.month, "day" := f.day,
        "day_of_week" := f.dayOfWeek, "airline" := f.airline, "flight_number" := f.flightNumber,
        "tail_number" := f.tailNumber, "origin_airport" := f.originAirport,
        "destination_airport" := f.destinationAirport, "scheduled_departure" := f.scheduledDeparture,
        "departure_time" := f.departureTime, "departure_delay" := f.departureDelay]
  }

  /** One object per row, in table order, each with exactly the thirteen listed keys. */
  function List(table: seq<Flight>): (r: seq<map<string, Value>>)
    ensures |r| == |table|
    ensures forall i :: 0 <= i < |r| ==> r[i] == Project(table[i])
  {
    seq(|table|, i requires 0 <= i < |table| => Project(table[i]))
  }

  /** Every listed object carries all the required keys, so posting it back passes the check. */
  lemma ListedFlightPassesCheck(table: seq<Flight>, i: int, fromIso: IsoParser, commit: Commit, id: int)
    requires 0 <= i < |table|
    ensures Post(Dict(List(table)[i]), table, fromIso, commit, id).response != BadRequest
  {
    var m := List(table)[i];
    assert forall k :: k in Required ==> k in ListedKeys;
    assert HasAll(m, Required);
  }

  /** `handle_flights`: GET lists without touching the table, POST inserts. */
  function Handle(verb: Verb, data: Value, table: seq<Flight>, fromIso: IsoParser, commit: Commit, id: int): (r: Outcome<Flight>)
    ensures verb == GET ==> r.table == table && r.response == Response(200, Listing(List(table)))
    ensures verb == POST ==> r == Post(data, table, fromIso, commit, id)
  {
    match verb
    case GET => Outcome(Response(200, Listing(List(table))), table)
    case POST => Post(data, table, fromIso, commit, id)
  }
}

=== FILE: http.dfy ===
/** What the three route handlers share: the response shapes, the outcome of the database
    commit, and the POST flow "check the body, build the record, add and commit it". */
module Http {
  import opened Wrappers
  import opened PyJson

  datatype Verb = GET | POST

  /** A response body: a success message, an error text, the listing of a GET, or Flask's own
      error page for an exception no handler caught. */
  datatype Payload =
    | Message(text: string)
    | ErrorMessage(text: string)
    | Listing(items: seq<map<string, Value>>)
    | ServerErrorPage

  datatype Response = Response(status: int, payload: Payload)

  const InvalidDataText := "Datos incompletos o inválidos"

  /** The reply to a body that is falsy or lacks a required key. */
  const BadRequest := Response(400, ErrorMessage(InvalidDataText))

  /** The reply to an exception caught by the handler's `try`: 500 with `str(e)`. */
  function Failure(e: Exception): (r: Response)
    ensures r.status == 500 && r.payload == ErrorMessage(ExceptionText(e))
  {
    Response(500, ErrorMessage(ExceptionText(e)))
  }

  /** Flask's reply to an exception raised outside any `try`. */
  const Unhandled := Response(500, ServerErrorPage)

  /** What `db.session.commit()` does with the added record; the database is outside the model. */
  datatype Commit = Committed | CommitFailed(message: string)

  /** A response together with the table as the request leaves it. */
  datatype Outcome<R> = Outcome(response: Response, table: seq<R>)

  /** `if not data or <some required key not in data>: return 400`, then inside `try`: build the
      record, add it, commit, and answer 201; any exception in there answers 500 with its text. */
  function Insert<R>(data: Value, required: seq<string>, built: Result<R, Exception>,
                     table: seq<R>, commit: Commit, success: string): (r: Outcome<R>)
    ensures !Truthy(data) ==> r == Outcome(BadRequest, table)
    ensures Truthy(data) ==>
              (r.response == BadRequest <==> Iterable(data) && exists k :: k in required && Contains(data, k) != Ok(true))
    ensures Truthy(data) && !Iterable(data) && |required| > 0 ==> r == Outcome(Unhandled, table)
    ensures data.Dict? ==>
              (r.response == BadRequest <==>
                 |data.entries| == 0 || exists k :: k in required && k !in data.entries)
    ensures r.response.status in {201, 400, 500}
    ensures r.response.status == 201 <==> r.table != table
    ensures r.response.status == 201 ==>
              Truthy(data) && built.Ok? && commit.Committed? && r.table == table + [built.value]
              && r.response.payload == Message(success)
    ensures data.Dict? && |data.entries| > 0 && (forall k :: k in required ==> k in data.entries) ==>
              && (built.Err? ==> r == Outcome(Failure(built.error), table))
              && (built.Ok? && commit.CommitFailed? ==>
                    r == Outcome(Failure(DatabaseError(commit.message)), table))
              && (built.Ok? && commit.Committed? ==>
                    r == Outcome(Response(201, Message(success)), table + [built.value]))
  {
    var present := ContainsAll(data, required);
    assert data.Dict? ==> present == Ok(forall k :: k in required ==> k in data.entries) by {
      if data.Dict? {
        ContainsAllOnDict(data.entries, required);
      }
    }
    if !Truthy(data) then Outcome(BadRequest, table)
    else
      match present
      case Err(_) => Outcome(Unhandled, table)
      case Ok(false) => Outcome(BadRequest, table)
      case Ok(true) =>
        match built
        case Err(e) => Outcome(Failure(e), table)
        case Ok(record) =>
          match commit
          case CommitFailed(m) => Outcome(Failure(DatabaseError(m)), table)
          case Committed =>
            assert |table + [record]| != |table|;
            Outcome(Response(201, Message(success)), table + [record])
  }
}

=== FILE: js_parse_int.dfy ===
/** JavaScript's global `parseInt(string)` with no radix argument (section 19.2.5 of ECMA-262):
    leading white space is skipped, one sign is read, a `0x`/`0X` prefix selects base 16, and the
    longest following run of digits is read; no digits gives NaN. */
module JsParseInt {
  import opened Numerals

  /** The number `parseInt` returns. `-0` is folded into `Int(0)`, and the value is kept as an
      exact integer instead of the nearest double; both are order-preserving, so every comparison
      against an integer constant comes out as in JavaScript. */
  datatype JsNumber = NaN | Int(value: int)

  /** ECMAScript's WhiteSpace and LineTerminator code points (also the regular-expression `\s`). */
  predicate IsJsSpace(c: char) {
    var u := c as int;
    || 0x09 <= u <= 0x0D || u == 0x20 || u == 0xA0 || u == 0x1680
    || 0x2000 <= u <= 0x200A || u == 0x2028 || u == 0x2029 || u == 0x202F || u == 0x205F
    || u == 0x3000 || u == 0xFEFF
  }

  /** `s` without its leading white space. */
  function TrimStart(s: string): (r: string)
    ensures |r| <= |s| && r == s[|s| - |r|..]
    ensures |r| == 0 || !IsJsSpace(r[0])
    ensures forall k :: 0 <= k < |s| - |r| ==> IsJsSpace(s[k])
  {
    if |s| > 0 && IsJsSpace(s[0]) then TrimStart(s[1..]) else s
  }

  predicate HasHexPrefix(s: string) {
    |s| >= 2 && s[0] == '0' && (s[1] == 'x' || s[1] == 'X')
  }

  /** Reads the unsigned part: an optional hex prefix, then the longest digit run. */
  function ParseMagnitude(s: string): (r: JsNumber)
    ensures r.Int? ==> r.value >= 0
    ensures r.Int? <==> |s| > 0 && IsDecimalDigit(s[0]) && !(HasHexPrefix(s) && (|s| == 2 || !IsHexDigit(s[2])))
  {
    var hex := HasHexPrefix(s);
    var body := if hex then s[2..] else s;
    var n := DigitRun(body, hex);
    if n == 0 then NaN else Int(ValueOf(body[..n], hex))
  }

  /** `parseInt(input)` with no radix: a number exactly when, after leading white space and an
      optional sign, the text starts with a decimal digit and is not a `0x` prefix without a hex
      digit after it; negative only after a `-`. */
  function ParseInt(input: string): (r: JsNumber)
    ensures r.Int? <==> var u := Unsigned(TrimStart(input));
                        |u| > 0 && IsDecimalDigit(u[0]) && !(HasHexPrefix(u) && (|u| == 2 || !IsHexDigit(u[2])))
    ensures r.Int? ==> |TrimStart(input)| > 0
    ensures r.Int? && r.value < 0 ==> TrimStart(input)[0] == '-'
    ensures r.Int? && TrimStart(input)[0] != '-' ==> r.value >= 0
  {
    var s := TrimStart(input);
    match ParseMagnitude(Unsigned(s))
    case NaN => NaN
    case Int(m) => if |s| > 0 && s[0] == '-' then Int(-m) else Int(m)
  }

  /** The unsigned part of a numeral followed by a non-digit reads back as its value. */
  lemma MagnitudeOfNumeral(m: nat, rest: string)
    requires |rest| == 0 || !IsDecimalDigit(rest[0])
    requires m == 0 ==> |rest| == 0 || (rest[0] != 'x' && rest[0] != 'X')
    ensures ParseMagnitude(ToDecimal(m) + rest) == Int(m)
  {
    var d := ToDecimal(m);
    var u := d + rest;
    assert !HasHexPrefix(u) by {
      if |d| == 1 {
        assert |u| >= 2 ==> u[1] == rest[0];
      } else {
        assert u[0] == d[0];
      }
    }
    DigitRunOfDigits(d, rest, false);
    assert u[..|d|] == d;
    DecimalRoundTrip(m);
  }

  /** A string starting with a digit is read without a sign. */
  lemma ParseUnsigned(u: string)
    requires |u| > 0 && IsDecimalDigit(u[0])
    ensures ParseInt(u) == ParseMagnitude(u)
  {
    assert !IsJsSpace(u[0]);
  }

  /** A leading `-` negates what follows it. */
  lemma ParseNegated(u: string)
    ensures ParseInt("-" + u) == match ParseMagnitude(u) case NaN => NaN case Int(m) => Int(-m)
  {
    var full := "-" + u;
    assert TrimStart(full) == full by {
      assert full[0] == '-';
      assert !IsJsSpace('-');
    }
    assert full[1..] == u;
  }

  /** `parseInt` reads back the numeral of any integer and ignores whatever follows it, as long
      as that does not continue the digit run and does not turn a lone `0` into a hex prefix
      (`parseInt("18.9")` is 18 and `parseInt("1e3")` is 1, but `parseInt("0x1")` is 1 read in
      base 16). */
  lemma {:induction false} ParseIntReadsNumeral(n: int, rest: string)
    requires |rest| == 0 || !IsDecimalDigit(rest[0])
    requires n == 0 ==> |rest| == 0 || (rest[0] != 'x' && rest[0] != 'X')
    ensures ParseInt(SignedDecimal(n) + rest) == Int(n)
  {
    var m: nat := if n < 0 then -n else n;
    var u := ToDecimal(m) + rest;
    MagnitudeOfNumeral(m, rest);
    if n < 0 {
      assert SignedDecimal(n) + rest == "-" + u;
      ParseNegated(u);
    } else {
      assert SignedDecimal(n) + rest == u;
      ParseUnsigned(u);
    }
  }

  /** `parseInt` reads back the numeral of every integer. */
  lemma ParseIntRoundTrip(n: int)
    ensures ParseInt(SignedDecimal(n)) == Int(n)
  {
    ParseIntReadsNumeral(n, "");
    assert SignedDecimal(n) + "" == SignedDecimal(n);
  }

  /** Leading white space does not change the result. */
  lemma LeadingSpaceIgnored(c: char, s: string)
    requires IsJsSpace(c)
    ensures ParseInt([c] + s) == ParseInt(s)
  {
    assert ([c] + s)[1..] == s;
  }
}

=== FILE: numerals.dfy ===
/** Digit strings and their values, shared by the JavaScript `parseInt` model and the Python
    `int()` model. */
module Numerals {

  predicate IsDecimalDigit(c: char) {
    '0' <= c <= '9'
  }

  predicate IsHexDigit(c: char) {
    IsDecimalDigit(c) || 'a' <= c <= 'f' || 'A' <= c <= 'F'
  }

  /** A digit of base 16 when `hex`, of base 10 otherwise. */
  predicate IsDigit(c: char, hex: bool) {
    if hex then IsHexDigit(c) else IsDecimalDigit(c)
  }

  /** What follows an optional leading `-` or `+`. */
  function Unsigned(t: string): (u: string)
    ensures |u| <= |t|
  {
    if |t| > 0 && (t[0] == '-' || t[0] == '+') then t[1..] else t
  }

  /** A string that starts with a digit has no sign to drop, and dropping a `-` in front of it
      gives it back. */
  lemma UnsignedOfDigits(d: string)
    requires |d| > 0 && IsDecimalDigit(d[0])
    ensures Unsigned(d) == d && Unsigned("-" + d) == d
  {
    assert ("-" + d)[1..] == d;
  }

  predicate AllDigits(s: string, hex: bool) {
    forall k :: 0 <= k < |s| ==> IsDigit(s[k], hex)
  }

  function Radix(hex: bool): nat {
    if hex then 16 else 10
  }

  function DigitValue(c: char): (d: nat)
    requires IsHexDigit(c)
    ensures IsDecimalDigit(c) ==> d == c as int - '0' as int && d < 10
    ensures !IsDecimalDigit(c) ==> 10 <= d < 16
  {
    if IsDecimalDigit(c) then c as int - '0' as int
    else if 'a' <= c <= 'f' then c as int - 'a' as int + 10
    else c as int - 'A' as int + 10
  }

  /** The value of a digit string read most-significant digit first. */
  function ValueOf(s: string, hex: bool): nat
    requires AllDigits(s, hex)
  {
    if |s| == 0 then 0 else ValueOf(s[..|s| - 1], hex) * Radix(hex) + DigitValue(s[|s| - 1])
  }

  /** Length of the longest prefix of `s` made only of digits. */
  function DigitRun(s: string, hex: bool): (n: nat)
    ensures n <= |s|
    ensures AllDigits(s[..n], hex)
    ensures n < |s| ==> !IsDigit(s[n], hex)
  {
    if |s| == 0 || !IsDigit(s[0], hex) then 0
    else
      var n := 1 + DigitRun(s[1..], hex);
      assert s[..n] == [s[0]] + s[1..][..n - 1];
      n
  }

  /** The shortest decimal numeral of `n` (Python's `str(n)` and JavaScript's `String(n)` for a
      non-negative integer). */
  function ToDecimal(n: nat): (s: string)
    ensures |s| > 0 && AllDigits(s, false)
    ensures |s| > 1 ==> s[0] != '0'
  {
    if n < 10 then [('0' as int + n) as char]
    else ToDecimal(n / 10) + [('0' as int + n % 10) as char]
  }

  /** The decimal numeral of an integer, with a leading `-` when negative. */
  function SignedDecimal(n: int): string {
    if n < 0 then "-" + ToDecimal(-n) else ToDecimal(n)
  }

  /** Reading back the numeral of `n` gives `n`. */
  lemma {:induction false} DecimalRoundTrip(n: nat)
    ensures ValueOf(ToDecimal(n), false) == n
  {
    var s := ToDecimal(n);
    if n >= 10 {
      DecimalRoundTrip(n / 10);
      assert s[..|s| - 1] == ToDecimal(n / 10);
    }
  }

  /** A digit string is its own longest digit prefix. */
  lemma {:induction false} DigitRunOfDigits(s: string, rest: string, hex: bool)
    requires AllDigits(s, hex)
    requires |rest| == 0 || !IsDigit(rest[0], hex)
    ensures DigitRun(s + rest, hex) == |s|
  {
    var t := s + rest;
    if |s| == 0 {
      assert t == rest;
    } else {
      assert t[0] == s[0] && IsDigit(t[0], hex);
      assert t[1..] == s[1..] + rest;
      DigitRunOfDigits(s[1..], rest, hex);
    }
  }
}

=== FILE: py_int.dfy ===
/** Python's `int(s)` on a string, base 10: surrounding white space is stripped, one sign is
    read, and the rest must be decimal digits with single underscores allowed between them;
    anything else raises `ValueError` (here `None`). */
module PyInt {
  import opened Wrappers
  import opened Numerals

  /** The characters `int()` skips around its numeral: the ASCII white space space, tab, line
      feed, vertical tab, form feed and carriage return, and the Unicode white space outside
      ASCII, which `int()` first turns into spaces. The ASCII separators U+001C to U+001F are
      white space to `str.strip()` but not to `int()`. */
  predicate IsPySpace(c: char) {
    var u := c as int;
    || 0x09 <= u <= 0x0D || u == 0x20 || u == 0x85 || u == 0xA0 || u == 0x1680
    || 0x2000 <= u <= 0x200A || u == 0x2028 || u == 0x2029 || u == 0x202F || u == 0x205F
    || u == 0x3000
  }

  function StripStart(s: string): (r: string)
    ensures |r| <= |s|
    ensures |r| == 0 || !IsPySpace(r[0])
  {
    if |s| > 0 && IsPySpace(s[0]) then StripStart(s[1..]) else s
  }

  function StripEnd(s: string): (r: string)
    ensures |r| <= |s|
    ensures |r| == 0 || !IsPySpace(r[|r| - 1])
  {
    if |s| > 0 && IsPySpace(s[|s| - 1]) then StripEnd(s[..|s| - 1]) else s
  }

  /** The numeral with the white space `int()` skips removed from both ends. */
  function Strip(s: string): string {
    StripEnd(StripStart(s))
  }

  /** Digits, with single underscores allowed only between two digits. */
  predicate IsDigitGroups(s: string) {
    && |s| > 0 && IsDecimalDigit(s[0]) && IsDecimalDigit(s[|s| - 1])
    && (forall k :: 0 <= k < |s| ==> IsDecimalDigit(s[k]) || s[k] == '_')
    && (forall k :: 0 <= k < |s| - 1 ==> !(s[k] == '_' && s[k + 1] == '_'))
  }

  /** The digits of `s` with the underscores left out. */
  function DropUnderscores(s: string): (r: string)
    ensures |r| <= |s|
    ensures (forall k :: 0 <= k < |s| ==> IsDecimalDigit(s[k]) || s[k] == '_') ==> AllDigits(r, false)
  {
    if |s| == 0 then ""
    else if s[0] == '_' then DropUnderscores(s[1..])
    else [s[0]] + DropUnderscores(s[1..])
  }

  /** The unsigned part: digit groups, read with the underscores left out. */
  function ParseDigits(body: string): (r: Option<nat>)
    ensures r.Some? <==> IsDigitGroups(body)
  {
    if IsDigitGroups(body) then Some(ValueOf(DropUnderscores(body), false)) else None
  }

  /** Python's `int(s)`; `None` where Python raises `ValueError`. */
  function ParseInt(s: string): (r: Option<int>)
  {
    var t := Strip(s);
    match ParseDigits(Unsigned(t))
    case None => None
    case Some(v) => if |t| > 0 && t[0] == '-' then Some(-(v as int)) else Some(v)
  }

  /** `int` accepts exactly the strings that, stripped of surrounding white space, are an
      optional sign followed by digit groups, and its result is negative only after a `-`. */
  lemma ParseIntAccepts(s: string)
    ensures ParseInt(s).Some? <==> IsDigitGroups(Unsigned(Strip(s)))
    ensures ParseInt(s).Some? && ParseInt(s).value < 0 ==> Strip(s)[0] == '-'
  {
  }

  lemma DropUnderscoresOfDigits(s: string)
    requires AllDigits(s, false)
    ensures DropUnderscores(s) == s
  {
  }

  /** A string that neither starts nor ends with white space is its own strip. */
  lemma StripUnpadded(s: string)
    requires |s| > 0 && !IsPySpace(s[0]) && !IsPySpace(s[|s| - 1])
    ensures Strip(s) == s
  {
  }

  /** The numeral of `m` reads back as `m`. */
  lemma ParseDigitsOfNumeral(m: nat)
    ensures ParseDigits(ToDecimal(m)) == Some(m)
  {
    var d := ToDecimal(m);
    assert IsDigitGroups(d);
    DropUnderscoresOfDigits(d);
    DecimalRoundTrip(m);
  }

  /** A string with no surrounding white space whose unsigned part reads as `v` is `v`, negated
      after a `-`. */
  lemma ParseIntOfUnpadded(s: string, v: nat)
    requires |s| > 0 && Strip(s) == s && ParseDigits(Unsigned(s)) == Some(v)
    ensures ParseInt(s) == Some(if s[0] == '-' then -(v as int) else v)
  {
  }

  /** The numeral of `m`, with or without a `-` in front, reads as `m` or `-m`. */
  lemma NumeralRead(m: nat)
    ensures ParseInt(ToDecimal(m)) == Some(m)
    ensures ParseInt("-" + ToDecimal(m)) == Some(-(m as int))
  {
    var d := ToDecimal(m);
    ParseDigitsOfNumeral(m);
    UnsignedOfDigits(d);
    assert IsDecimalDigit(d[0]) && IsDecimalDigit(d[|d| - 1]);
    assert Strip(d) == d by {
      StripUnpadded(d);
    }
    ParseIntOfUnpadded(d, m);
    var s := "-" + d;
    assert Strip(s) == s by {
      assert s[|s| - 1] == d[|d| - 1];
      StripUnpadded(s);
    }
    ParseIntOfUnpadded(s, m);
  }

  /** `int` reads back the numeral of every integer. */
  lemma ParseIntRoundTrip(n: int)
    ensures ParseInt(SignedDecimal(n)) == Some(n)
  {
    var m: nat := if n < 0 then -n else n;
    var d := ToDecimal(m);
    NumeralRead(m);
    assert SignedDecimal(n) == if n < 0 then "-" + d else d;
  }

  /** Underscores between digit groups are ignored: "8_080" reads as 8080. */
  lemma UnderscoreSeparated()
    ensures ParseInt("8_080") == Some(8080)
  {
    var s := "8_080";
    assert Strip(s) == s && Unsigned(s) == s by {
      StripUnpadded(s);
    }
    assert ParseDigits(s) == Some(8080) by {
      assert IsDigitGroups(s);
      assert DropUnderscores(s) == "8080" by {
        assert s[4..] == "0" && s[3..] == "80" && s[2..] == "080" && s[1..] == "_080";
      }
      EightyEighty();
    }
    ParseIntOfUnpadded(s, 8080);
  }

  /** The digits "8080" are worth 8080. */
  lemma EightyEighty()
    ensures ValueOf("8080", false) == 8080
  {
    assert "8"[..0] == "";
    assert ValueOf("8", false) == 8;
    assert "80"[..1] == "8";
    assert ValueOf("80", false) == 80;
    assert "808"[..2] == "80";
    assert ValueOf("808", false) == 808;
    assert "8080"[..3] == "808";
  }

  /** Stripping a blank string leaves nothing. */
  lemma {:induction false} StripStartBlank(s: string)
    requires forall k :: 0 <= k < |s| ==> IsPySpace(s[k])
    ensures StripStart(s) == ""
  {
    if |s| > 0 {
      assert forall k :: 0 <= k < |s[1..]| ==> s[1..][k] == s[k + 1];
      StripStartBlank(s[1..]);
    }
  }

  /** An empty or blank value is not a number. */
  lemma BlankRejected(s: string)
    requires forall k :: 0 <= k < |s| ==> IsPySpace(s[k])
    ensures ParseInt(s) == None
  {
    StripStartBlank(s);
    assert Strip(s) == "";
    assert Unsigned("") == "";
  }

  /** The ASCII separators U+001C to U+001F are not skipped: a numeral next to one is rejected,
      while a tab or a no-break space next to it is not. */
  lemma SeparatorNotSkipped()
    ensures ParseInt("\U{1C}5") == None && ParseInt("5\U{1F}") == None
    ensures ParseInt("\t5") == Some(5) && ParseInt("5\U{A0}") == Some(5)
  {
    assert Strip("\U{1C}5") == "\U{1C}5";
    assert StripEnd("5\U{1F}") == "5\U{1F}";
    assert Strip("5\U{1F}") == "5\U{1F}";
    assert StripStart("\t5") == "5";
    assert StripEnd("5\U{A0}") == "5";
    assert Strip("5\U{A0}") == "5";
    assert ValueOf("5", false) == 5;
  }
}

=== FILE: py_json.dfy ===
/** The Python objects a JSON request body decodes to, with the three Python operations the
    handlers apply to a body: truthiness, the `in` test and subscripting (`data[k]`,
    `data.get(k, default)`). */
module PyJson {
  import opened Wrappers
  import Text

  /** A decoded JSON value. A number with a fraction or exponent is the finite double the decoder
      rounded it to, held as its exact value; `1e-400`, for one, decodes to `Float(0.0)`. */
  datatype Value =
    | Null
    | Bool(b: bool)
    | Int(i: int)
    | Float(r: real)
    | Str(s: string)
    | List(items: seq<Value>)
    | Dict(entries: map<string, Value>)

  /** An exception a handler raises; the text is Python's `str(e)`. */
  datatype Exception =
    | KeyError(key: string)
    | TypeError(message: string)
    | ValueError(message: string)
    | DatabaseError(message: string)

  /** `str(e)`: a `KeyError` shows its key in quotes, the others their message. */
  function ExceptionText(e: Exception): string {
    match e
    case KeyError(k) => "'" + k + "'"
    case TypeError(m) => m
    case ValueError(m) => m
    case DatabaseError(m) => m
  }

  /** The Python type name used in `TypeError` messages. */
  function TypeName(v: Value): string {
    match v
    case Null => "NoneType"
    case Bool(_) => "bool"
    case Int(_) => "int"
    case Float(_) => "float"
    case Str(_) => "str"
    case List(_) => "list"
    case Dict(_) => "dict"
  }

  /** Python truthiness: `None`, `False`, zero, and empty strings, lists and dicts are false. */
  predicate Truthy(v: Value) {
    match v
    case Null => false
    case Bool(b) => b
    case Int(i) => i != 0
    case Float(x) => x != 0.0
    case Str(s) => |s| > 0
    case List(xs) => |xs| > 0
    case Dict(m) => |m| > 0
  }

  /** The falsy JSON values are exactly seven: `None`, `False`, `0`, `0.0`, `""`, `[]` and `{}`. */
  lemma FalsyValues(v: Value)
    ensures !Truthy(v) <==> v in {Null, Bool(false), Int(0), Float(0.0), Str(""), List([]), Dict(map[])}
  {
  }

  /** `key in data`: a dict tests its keys, a list its elements, a string its substrings; on any
      other value Python raises `TypeError`. */
  function Contains(data: Value, key: string): (r: Result<bool, Exception>)
    ensures data.Dict? ==> r == Ok(key in data.entries)
    ensures r.Err? <==> !(data.Dict? || data.List? || data.Str?)
  {
    match data
    case Dict(m) => Ok(key in m)
    case List(xs) => Ok(Str(key) in xs)
    case Str(s) => Ok(Text.Substring(key, s))
    case _ => Err(TypeError("argument of type '" + TypeName(data) + "' is not iterable"))
  }

  /** The values Python's `in` can be applied to. */
  predicate Iterable(v: Value) {
    v.Dict? || v.List? || v.Str?
  }

  /** `all(key in data for key in keys)`: stops at the first key that is absent; the first `in`
      that raises ends the evaluation with that exception. */
  function ContainsAll(data: Value, keys: seq<string>): (r: Result<bool, Exception>)
    ensures Iterable(data) ==> r.Ok? && (r.value <==> forall k :: k in keys ==> Contains(data, k) == Ok(true))
    ensures !Iterable(data) && |keys| > 0 ==> r.Err?
  {
    if |keys| == 0 then Ok(true)
    else
      match Contains(data, keys[0])
      case Err(e) => Err(e)
      case Ok(false) => Ok(false)
      case Ok(true) => ContainsAll(data, keys[1..])
  }

  /** On a dict, the chained `in` test fails exactly when some listed key is absent. */
  lemma {:induction false} ContainsAllOnDict(m: map<string, Value>, keys: seq<string>)
    ensures ContainsAll(Dict(m), keys) == Ok(forall k :: k in keys ==> k in m)
  {
    if |keys| > 0 {
      ContainsAllOnDict(m, keys[1..]);
      assert forall k :: k in keys <==> k == keys[0] || k in keys[1..];
    }
  }

  /** `data[key]`: a dict yields the entry or raises `KeyError`; subscripting anything else with a
      string raises `TypeError`. */
  function Index(data: Value, key: string): (r: Result<Value, Exception>)
    ensures data.Dict? && key in data.entries ==> r == Ok(data.entries[key])
    ensures data.Dict? && key !in data.entries ==> r == Err(KeyError(key))
    ensures !data.Dict? ==> r.Err? && r.error.TypeError?
  {
    match data
    case Dict(m) => if key in m then Ok(m[key]) else Err(KeyError(key))
    case List(_) => Err(TypeError("list indices must be integers or slices, not str"))
    case Str(_) => Err(TypeError("string indices must be integers, not 'str'"))
    case _ => Err(TypeError("'" + TypeName(data) + "' object is not subscriptable"))
  }

  /** `data.get(key, default)` on a dict, and `os.getenv(name, default)` on the environment: the
      entry when present, even a falsy one, and the default only when the key is absent. */
  function GetOr<V>(m: map<string, V>, key: string, default: V): (r: V)
    ensures key in m ==> r == m[key]
    ensures key !in m ==> r == default
  {
    if key in m then m[key] else default
  }

  /** `data.get(key)` on a dict. */
  function Get(m: map<string, Value>, key: string): Value {
    GetOr(m, key, Null)
  }

  /** All listed keys are present. */
  predicate HasAll(m: map<string, Value>, keys: seq<string>) {
    forall k :: k in keys ==> k in m
  }

  /** The position of the first listed key that is absent: the key whose `data[k]` raises first
      when the keys are indexed in order. */
  function FirstAbsent(m: map<string, Value>, keys: seq<string>): (i: nat)
    requires !HasAll(m, keys)
    ensures i < |keys| && keys[i] !in m
    ensures forall j :: 0 <= j < i ==> keys[j] in m
  {
    if keys[0] !in m then 0
    else
      assert forall k :: k in keys[1..] ==> k in keys;
      1 + FirstAbsent(m, keys[1..])
  }
}

=== FILE: registration_form.dfy ===
/** The registration form component: three validators, the per-field change handler and the
    submit handler that decides whether the user is logged in and whether they are an employee. */
module RegistrationForm {
  import opened Text
  import opened Numerals
  import opened JsParseInt

  const EmailFormatError := "El formato del correo electrónico no es válido"
  const AgeRangeError := "La edad debe ser un número entre 1 y 120"
  const UnderAgeError := "Lo sentimos, no tienes edad suficiente para registrarte"
  const EmployeeCodeError := "El código de empleado debe tener exactamente 6 caracteres"
  const FixErrorsMessage := "Por favor, corrige los errores en el formulario"

  /** Suffix that marks an employee address. */
  const EmployeeSuffix := "umg.com"

  // ---------------------------------------------------------------------------------------------
  // Email: the pattern /^[^\s@]+@[^\s@]+\.[^\s@]+$/

  /** A character the class `[^\s@]` admits. */
  predicate IsRunChar(c: char) {
    !IsJsSpace(c) && c != '@'
  }

  /** A match of `[^\s@]+`. */
  predicate IsRun(s: string) {
    |s| > 0 && forall k :: 0 <= k < |s| ==> IsRunChar(s[k])
  }

  /** The meaning of the pattern: `s` splits as run, `@`, run, `.`, run, with the `@` at index `i`
      and the `.` at index `j`. */
  ghost predicate MatchesEmailPattern(s: string) {
    exists i, j :: 0 <= i < j < |s| && s[i] == '@' && s[j] == '.'
                   && IsRun(s[..i]) && IsRun(s[i + 1..j]) && IsRun(s[j + 1..])
  }

  /** A direct test of the same shape: no white space, exactly one `@`, not first, and a `.`
      after it that is neither right after the `@` nor last. */
  predicate EmailShape(s: string) {
    && (forall k | 0 <= k < |s| :: !IsJsSpace(s[k]))
    && exists i | 0 < i < |s| ::
         && s[i] == '@'
         && (forall k | 0 <= k < |s| && k != i :: s[k] != '@')
         && exists j | i + 1 < j < |s| - 1 :: s[j] == '.'
  }

  lemma EmailShapeFromPattern(s: string, i: int, j: int)
    requires 0 <= i < j < |s| && s[i] == '@' && s[j] == '.'
    requires IsRun(s[..i]) && IsRun(s[i + 1..j]) && IsRun(s[j + 1..])
    ensures EmailShape(s)
  {
    forall k | 0 <= k < |s| && k != i
      ensures IsRunChar(s[k])
    {
      if k < i {
        assert s[..i][k] == s[k];
      } else if k < j {
        assert s[i + 1..j][k - i - 1] == s[k];
      } else if k > j {
        assert s[j + 1..][k - j - 1] == s[k];
      }
    }
    assert s[i] == '@' && i + 1 < j < |s| - 1;
  }

  lemma PatternFromEmailShape(s: string)
    requires EmailShape(s)
    ensures MatchesEmailPattern(s)
  {
    var i :| 0 < i < |s| && s[i] == '@' && (forall k | 0 <= k < |s| && k != i :: s[k] != '@')
             && exists j | i + 1 < j < |s| - 1 :: s[j] == '.';
    var j :| i + 1 < j < |s| - 1 && s[j] == '.';
    assert forall k :: 0 <= k < |s| && k != i ==> IsRunChar(s[k]);
    assert forall k :: 0 <= k < i ==> s[..i][k] == s[k];
    var local, domain, top := s[..i], s[i + 1..j], s[j + 1..];
    assert forall k :: 0 <= k < |domain| ==> domain[k] == s[k + i + 1];
    assert forall k :: 0 <= k < |top| ==> top[k] == s[k + j + 1];
    assert IsRun(s[..i]) && IsRun(s[i + 1..j]) && IsRun(s[j + 1..]);
  }

  /** The direct test decides the pattern. */
  lemma EmailShapeIffPattern(s: string)
    ensures EmailShape(s) <==> MatchesEmailPattern(s)
  {
    if MatchesEmailPattern(s) {
      var i, j :| 0 <= i < j < |s| && s[i] == '@' && s[j] == '.'
                  && IsRun(s[..i]) && IsRun(s[i + 1..j]) && IsRun(s[j + 1..]);
      EmailShapeFromPattern(s, i, j);
    }
    if EmailShape(s) {
      PatternFromEmailShape(s);
    }
  }

  /** `validateEmail`: the empty string exactly for addresses the pattern matches. */
  function ValidateEmail(email: string): (r: string)
    ensures r == "" <==> MatchesEmailPattern(email)
    ensures r != "" ==> r == EmailFormatError
  {
    EmailShapeIffPattern(email);
    if EmailShape(email) then "" else EmailFormatError
  }

  // ---------------------------------------------------------------------------------------------
  // Age

  /** `validateAge`: the range check runs first, so the two errors never overlap. */
  function ValidateAge(age: string): (r: string)
    ensures r == AgeRangeError <==> ParseInt(age).NaN? || ParseInt(age).value < 1 || ParseInt(age).value > 120
    ensures r == UnderAgeError <==> ParseInt(age).Int? && 1 <= ParseInt(age).value < 18
    ensures r == "" <==> ParseInt(age).Int? && 18 <= ParseInt(age).value <= 120
  {
    var n := ParseInt(age);
    if n.NaN? || n.value < 1 || n.value > 120 then AgeRangeError
    else if n.value < 18 then UnderAgeError
    else ""
  }

  /** On the numeral of a whole number `n`, possibly followed by a fractional part or an
      exponent, the age check accepts exactly 18..120, reports under-age for 1..17, and the range
      error otherwise. */
  lemma AgeOfNumeral(n: int, rest: string)
    requires |rest| == 0 || rest[0] == '.' || rest[0] == 'e' || rest[0] == 'E'
    ensures ValidateAge(SignedDecimal(n) + rest) == "" <==> 18 <= n <= 120
    ensures ValidateAge(SignedDecimal(n) + rest) == UnderAgeError <==> 1 <= n <= 17
    ensures ValidateAge(SignedDecimal(n) + rest) == AgeRangeError <==> n < 1 || n > 120
  {
    ParseIntReadsNumeral(n, rest);
  }

  /** `parseInt` stops at the exponent, so "1e3" (one thousand, as a number field may hold it) is
      reported as under-age rather than out of range. */
  lemma ExponentNumeralReadAsLeadingDigits()
    ensures ValidateAge("1e3") == UnderAgeError
  {
    AgeOfNumeral(1, "e3");
    assert SignedDecimal(1) + "e3" == "1e3";
  }

  // ---------------------------------------------------------------------------------------------
  // Employee code

  /** The employee flag: a plain suffix test on the whole address, not a check of its domain. */
  predicate IsEmployeeDomain(email: string): (b: bool)
    ensures b <==> exists local: string :: email == local + EmployeeSuffix
  {
    var b := EndsWith(email, EmployeeSuffix);
    assert b ==> email == email[..|email| - |EmployeeSuffix|] + EmployeeSuffix;
    assert forall local: string :: email == local + EmployeeSuffix ==> email[|local|..] == EmployeeSuffix;
    b
  }

  /** `validateEmployeeCode`: an error exactly when the address is an employee's and the code is
      not six UTF-16 code units long; an empty code is covered by the length test. */
  function ValidateEmployeeCode(code: string, isEmployeeDomain: bool): (r: string)
    ensures r != "" <==> isEmployeeDomain && Utf16Length(code) != 6
    ensures r != "" ==> r == EmployeeCodeError
    ensures !isEmployeeDomain ==> r == ""
  {
    if isEmployeeDomain && (|code| == 0 || Utf16Length(code) != 6) then EmployeeCodeError else ""
  }

  /** For a code without characters outside the Basic Multilingual Plane the length test is a
      plain character count. */
  lemma EmployeeCodeCountsCharacters(code: string)
    requires forall k :: 0 <= k < |code| ==> code[k] as int <= 0xFFFF
    ensures ValidateEmployeeCode(code, true) == "" <==> |code| == 6
  {
    Utf16LengthBounds(code);
  }

  /** Three characters outside the Basic Multilingual Plane make six code units, so such a code
      is accepted. */
  lemma AstralCodeAccepted()
    ensures ValidateEmployeeCode("\U{1F600}\U{1F600}\U{1F600}", true) == ""
  {
    var c := "\U{1F600}\U{1F600}\U{1F600}";
    assert c[..1][..0] == [];
    assert Utf16Length(c[..1]) == 2;
    assert c[..2][..1] == c[..1];
    assert Utf16Length(c[..2]) == 4;
    assert c[..|c| - 1] == c[..2];
    assert Utf16Length(c) == 6;
  }

  /** An address on another domain that merely ends in the suffix still counts as an employee's,
      even though it is a valid address whose domain is not `umg.com`. */
  lemma SuffixIsNotDomainCheck()
    ensures MatchesEmailPattern("a@xumg.com") && IsEmployeeDomain("a@xumg.com")
  {
    var s := "a@xumg.com";
    EmailShapeFromPattern(s, 1, 6);
    EmailShapeIffPattern(s);
    assert s[|s| - |EmployeeSuffix|..] == EmployeeSuffix;
  }

  // ---------------------------------------------------------------------------------------------
  // Form state and handlers

  datatype Field = Email | Age | EmployeeCode

  /** One string per input, used both for the values (`formData`) and for their messages
      (`errors`). */
  datatype Entries = Entries(email: string, age: string, employeeCode: string) {
    function Get(f: Field): string {
      match f
      case Email => email
      case Age => age
      case EmployeeCode => employeeCode
    }

    /** The spread update `{ ...prev, [name]: value }`. */
    function Set(f: Field, v: string): (r: Entries)
      ensures r.Get(f) == v
      ensures forall g :: g != f ==> r.Get(g) == Get(g)
    {
      match f
      case Email => this.(email := v)
      case Age => this.(age := v)
      case EmployeeCode => this.(employeeCode := v)
    }
  }

  const Blank := Entries("", "", "")

  /** The component's state together with the two flags it sets in its parent. */
  datatype Form = Form(data: Entries, errors: Entries, submitError: string, loggedIn: bool, employee: bool)

  /** Every field empty, no message, logged out. */
  const Initial := Form(Blank, Blank, "", false, false)

  /** What each field must satisfy for the form to be accepted, stated through the pattern and
      the parsed number rather than through the validators. */
  ghost predicate Accepted(d: Entries, f: Field) {
    match f
    case Email => MatchesEmailPattern(d.email)
    case Age => ParseInt(d.age).Int? && 18 <= ParseInt(d.age).value <= 120
    case EmployeeCode => !IsEmployeeDomain(d.email) || Utf16Length(d.employeeCode) == 6
  }

  /** All three fields accepted. */
  ghost predicate AllAccepted(d: Entries) {
    Accepted(d, Email) && Accepted(d, Age) && Accepted(d, EmployeeCode)
  }

  /** The validator of each field applied to the current values. */
  function Validate(d: Entries): (r: Entries)
    ensures forall f :: r.Get(f) == "" <==> Accepted(d, f)
  {
    Entries(ValidateEmail(d.email), ValidateAge(d.age),
            ValidateEmployeeCode(d.employeeCode, IsEmployeeDomain(d.email)))
  }

  /** `handleChange`: the named field takes the typed value, its message and the submit message
      are cleared, and nothing else changes. */
  function HandleChange(form: Form, name: Field, value: string): (r: Form)
    ensures r.data.Get(name) == value && r.errors.Get(name) == "" && r.submitError == ""
    ensures forall f :: f != name ==> r.data.Get(f) == form.data.Get(f) && r.errors.Get(f) == form.errors.Get(f)
    ensures r.loggedIn == form.loggedIn && r.employee == form.employee
  {
    form.(data := form.data.Set(name, value), errors := form.errors.Set(name, ""), submitError := "")
  }

  /** `handleSubmit`: every field is validated; the user is logged in exactly when all three are
      accepted, and then the employee flag is exactly the suffix test; otherwise the submit
      message is shown and neither flag is touched. */
  function HandleSubmit(form: Form): (r: Form)
    ensures r.data == form.data
    ensures forall f :: r.errors.Get(f) == "" <==> Accepted(form.data, f)
    ensures && r.errors.email == ValidateEmail(form.data.email)
            && r.errors.age == ValidateAge(form.data.age)
            && r.errors.employeeCode == ValidateEmployeeCode(form.data.employeeCode, IsEmployeeDomain(form.data.email))
    ensures AllAccepted(form.data) ==>
              r.loggedIn && r.employee == IsEmployeeDomain(form.data.email) && r.submitError == form.submitError
    ensures !AllAccepted(form.data) ==>
              r.loggedIn == form.loggedIn && r.employee == form.employee && r.submitError == FixErrorsMessage
  {
    var errors := Validate(form.data);
    assert errors.Get(Email) == "" <==> Accepted(form.data, Email);
    assert errors.Get(Age) == "" <==> Accepted(form.data, Age);
    assert errors.Get(EmployeeCode) == "" <==> Accepted(form.data, EmployeeCode);
    var isEmployeeDomain := IsEmployeeDomain(form.data.email);
    if errors.email != "" || errors.age != "" || errors.employeeCode != "" then
      form.(errors := errors, submitError := FixErrorsMessage)
    else
      form.(errors := errors, loggedIn := true, employee := isEmployeeDomain)
  }

  /** Submitting twice in a row has the effect of submitting once. */
  lemma SubmitIdempotent(form: Form)
    ensures HandleSubmit(HandleSubmit(form)) == HandleSubmit(form)
  {
  }

  /** A fresh form cannot be submitted successfully: the empty address fails the pattern. */
  lemma InitialSubmitFails()
    ensures !HandleSubmit(Initial).loggedIn && HandleSubmit(Initial).submitError == FixErrorsMessage
  {
    assert !Accepted(Initial.data, Email);
  }
}

=== FILE: text.dfy ===
/** String helpers shared by the form validators and the start-up checks. */
module Text {

  /** Total length of the strings in `xs`. */
  function TotalLength(xs: seq<string>): nat {
    if |xs| == 0 then 0 else |xs[0]| + TotalLength(xs[1..])
  }

  /** Python's `sep.join(xs)`: the strings in order with one `sep` between neighbours. */
  function Join(xs: seq<string>, sep: string): (r: string)
    ensures |xs| == 0 ==> r == ""
    ensures |xs| == 1 ==> r == xs[0]
    ensures |xs| > 0 ==> |r| == TotalLength(xs) + (|xs| - 1) * |sep|
    ensures |xs| > 0 ==> r[..|xs[0]|] == xs[0] && EndsWith(r, xs[|xs| - 1])
    ensures |xs| > 1 ==> r[|xs[0]|..|xs[0]| + |sep|] == sep
  {
    if |xs| == 0 then ""
    else if |xs| == 1 then xs[0]
    else
      var rest := Join(xs[1..], sep);
      var r := xs[0] + sep + rest;
      assert xs[1..][|xs[1..]| - 1] == xs[|xs| - 1];
      assert r[|r| - |rest|..] == rest;
      r
  }

  /** JavaScript's `s.endsWith(suffix)`, Python's `s.endswith(suffix)`. */
  predicate EndsWith(s: string, suffix: string) {
    |suffix| <= |s| && s[|s| - |suffix|..] == suffix
  }

  /** True iff `x` occurs as a contiguous piece of `s` (Python's `x in s` on strings). */
  predicate Substring(x: string, s: string) {
    exists i | 0 <= i <= |s| - |x| :: OccursAt(x, s, i)
  }

  /** True iff `x` occurs in `s` starting at index `i`. */
  predicate OccursAt(x: string, s: string, i: int)
    requires 0 <= i <= |s| - |x|
  {
    s[i..i + |x|] == x
  }

  /** `c` lowered when it is an ASCII capital letter, unchanged otherwise. */
  function LowerChar(c: char): (r: char)
    ensures 'A' <= c <= 'Z' ==> r as int == c as int + 32
    ensures !('A' <= c <= 'Z') ==> r == c
  {
    if 'A' <= c <= 'Z' then (c as int + 32) as char else c
  }

  /** ASCII lowering of every character of `s`. */
  function Lower(s: string): (r: string)
    ensures |r| == |s|
    ensures forall k :: 0 <= k < |s| ==> r[k] == LowerChar(s[k])
  {
    seq(|s|, k requires 0 <= k < |s| => LowerChar(s[k]))
  }

  /** Number of UTF-16 code units that encode `c` (JavaScript strings are UTF-16). */
  function Utf16Units(c: char): (n: nat)
    ensures n == 1 || n == 2
    ensures n == 2 <==> c as int > 0xFFFF
  {
    if c as int > 0xFFFF then 2 else 1
  }

  /** JavaScript's `s.length`: the count of UTF-16 code units of `s`. */
  function Utf16Length(s: string): (n: nat)
  {
    if |s| == 0 then 0 else Utf16Length(s[..|s| - 1]) + Utf16Units(s[|s| - 1])
  }

  /** A string counts at least one code unit per character, two for each character outside the
      Basic Multilingual Plane, so the JavaScript length equals `|s|` exactly when every character
      lies inside it. */
  lemma {:induction false} Utf16LengthBounds(s: string)
    ensures |s| <= Utf16Length(s) <= 2 * |s|
    ensures Utf16Length(s) == |s| <==> forall k :: 0 <= k < |s| ==> s[k] as int <= 0xFFFF
  {
    if |s| > 0 {
      var init := s[..|s| - 1];
      Utf16LengthBounds(init);
      assert forall k :: 0 <= k < |init| ==> init[k] == s[k];
      if Utf16Length(s) == |s| {
        assert Utf16Length(init) == |init|;
        assert s[|s| - 1] as int <= 0xFFFF;
      }
    }
  }
}

=== FILE: wrappers.dfy ===
/** Failure-compatible Option and Result datatypes shared by every module. */
module Wrappers {

  datatype Option<+T> = None | Some(value: T)

  /** A value or an error; usable with `:-` so that a chain of steps stops at the first failure. */
  datatype Result<+T, +E> = Ok(value: T) | Err(error: E) {
    predicate IsFailure() {
      Err?
    }

    function PropagateFailure<U>(): Result<U, E>
      requires Err?
    {
      Err(error)
    }

    function Extract(): T
      requires Ok?
    {
      value
    }
  }
}
